=== FILE: README.md ===
# PowerUDP in Dafny

A model of the core of PowerUDP, a small reliability layer over UDP with a
central control server:

- the client library (`client.c`) sends one datagram at a time (stop-and-wait)
  and retries until an ACK arrives, with optional exponential backoff, optional
  sequence numbers and injected loss for testing. It receives datagrams and
  answers each with an ACK or a NACK, registers with the server over a stream
  connection using a pre-shared key, asks the server for configuration changes,
  and adopts the configurations that reach its listener. As written, the
  server multicasts to the group's port 54321 and the client listens only on its
  own UDP port, so only a client on that port receives them (see Findings);
- the server (`server.c`) keeps a table of at most ten registered peers, checks
  the key, clamps requested configurations to safe minimums, stores them, and
  multicasts them three times. It also marks a peer inactive when that peer's
  worker process exits;
- `powerudp.h` holds the wire records and the constants.

Everything the C code gets from the outside world is an input to the model:
`rand()` draws, the datagram (if any) that answered each attempt, what
`recvfrom` and `read` returned, the clock, the result of `fork`, and whether
each `write`, socket setup and `sendto` succeeded. Each operation is a pure
function of that state and those inputs.

Modules, in dependency order:

| module | file | what it holds |
|---|---|---|
| `Base` | base.dfy | fixed-width integer types and wrap-around, `Option`, first-match search, powers of two, C string comparison and `strncpy` |
| `Wire` | wire.dfy | header, datagram, configuration and registration records, message tags, sizes, the two-byte replies |
| `Destination` | destination.dfy | splitting the `"IP:PORT"` destination (a C string, as bytes) and `atoi` |
| `Arq` | arq.dfy | injected loss, the backoff timeout, `send_message`'s retry loop, `receive_message` |
| `ClientControl` | client_control.dfy | the multicast listener, the registration and configuration requests, the reply check |
| `Registry` | registry.dfy | the server's peer table: registration and the reaping of worker processes |
| `ControlPlane` | control_plane.dfy | dispatching a stream request, clamping, publishing, the accept loop |
| `Session` | session.dfy | properties of client and server together |

Sizes follow the compiler's natural alignment of the C structs:

- a header (`uint8_t`, `uint32_t`, `uint16_t`) is 12 bytes;
- a configuration (three `uint8_t`, a `uint16_t`, a `uint8_t`) is 8 bytes;
- a registration record is 64 bytes.

The properties rest on how these sizes compare with one another, and on the header size itself where a reply is a bare header.

## Model

| member | source | states |
|---|---|---|
| Wire.TagsDistinct | powerudp.h:10-12 | DATA, ACK and NACK are three distinct tags |
| Wire.DataPacket | client.c:227-233 | a DATA datagram carries the current send number and the payload unchanged. It is well formed: its length field equals the payload length and is at most 1024 |
| Base.Inc32 | client.c:287 | a sequence counter is an unsigned 32-bit number: an increment adds one and wraps from 2^32-1 to 0 |
| Base.IncByMod | client.c:287 | n increments of a counter add n modulo 2^32 |
| Base.IncByCycle | client.c:287 | a counter comes back to its starting value exactly after a multiple of 2^32 increments |
| Wire.Control | client.c:352-355 | an ACK or NACK header carries the tag it was built with, echoes the sequence number it answers, carries no data, and is never taken for DATA |
| Destination.SplitDestination | client.c:210-220 | only the first 63 bytes count (the `strncpy` into the 64-byte `dest_ip`). Without a ':' the whole text is the address and the local UDP port is used (cut to 16 bits). With one, the address is everything before the first ':' and the port is `atoi` of the rest. The address never contains a ':' |
| Destination.SplitJoin | client.c:213-220 | an `"IP:PORT"` text that fits the buffer splits back into exactly that address and port, whatever the local port is |
| Destination.Atoi | client.c:219 | a text of digits only reads as its decimal value. A blank text, or one starting with anything but white space, a sign or a digit, reads as 0 |
| Destination.Signed | client.c:219 | once the white space is gone, a text of digits only reads as its value, and an empty text or one starting with anything but a sign or a digit reads as 0 |
| Destination.AtoiDecimal | client.c:219 | `atoi` reads back every port written in decimal |
| Arq.ShouldDrop | client.c:32-35 | a transmission is dropped iff the draw modulo 100 is below the loss percentage; a loss of 0 never drops and a loss of 100 always does |
| Arq.InjectPacketLoss | client.c:399-402 | the loss percentage is clamped into [0, 100], and nothing else in the client state changes |
| Arq.LossExtremes | client.c:32-35 | a loss of 0 or less never drops a transmission. A loss of 100 or more drops every one |
| Arq.DropCountBelow | client.c:34 | among the draws 0 .. n-1 (n ≤ 100), exactly min(n, loss) are dropped |
| Arq.DropRate | client.c:34 | among the 100 draws 0 .. 99, exactly `loss` transmissions are dropped, so the drop rate is the loss percentage |
| Arq.Timeout | client.c:255-258 | the wait is never below the base timeout. It equals the base without backoff and on the first attempt |
| Arq.TimeoutDoubles | client.c:255-258 | with backoff, each attempt after the first waits twice as long as the one before |
| Arq.TimeoutClosedForm | client.c:257 | with backoff, attempt n waits the base timeout times 2^n (the first attempt, n = 0, waits the base) |
| Arq.TimeoutMonotone | client.c:255-258 | a later attempt never waits less than an earlier one |
| Arq.TimeoutUncapped | client.c:255-258 | there is no upper cap: with backoff the wait exceeds any bound given enough attempts |
| Arq.TimeoutAsWritten | client.c:257 | the C `int` product equals the mathematical timeout whenever that fits in 32 bits |
| Arq.TimeoutOverflowWitness | client.c:257 | base 1000 at attempt 22 should wait 4,194,304,000 ms, but the C product is negative |
| Arq.RecvErrorPassesGuard | client.c:336 | the `(size_t)` guard lets `recvfrom`'s -1 through, while the intended runt test rejects it |
| Arq.RuntGuardsAgree | client.c:280 | for every byte count a datagram can have, the guard as written and the intended runt test agree |
| Arq.Acks | client.c:280-282 | only a reply of at least a header's size that is an ACK echoing the sent number acknowledges. A NACK, an answer for another number, a runt and silence never do, and the ACK header a receiver sends back always does |
| Arq.SendLoop | client.c:242-316 | the loop's failure count stays within [attempt, max_retries+1], and an acknowledged loop stopped within the retry budget |
| Arq.SendLoopMeaning | client.c:242-316 | the loop is acknowledged iff some attempt it may make got an ACK of the sent number. It stops at the first such attempt and logs exactly the attempts it made, each with its drop decision and timeout. Without an ACK it uses its whole budget |
| Arq.SendMessage | client.c:204-324 | a payload over 1024 bytes is refused with no effect. Otherwise the one DATA datagram goes to the split destination. The call returns `len` iff an attempt within the budget (all max_retries+1 attempts, or one without retransmission) saw an ACK of the sent number, and -1 otherwise. The retransmission count is the number of failed attempts (or 0 without retransmission). Only a success with sequencing on advances the send counter, by one with 32-bit wrap-around |
| Arq.ReceiveMessage | client.c:328-388 | a datagram is accepted iff it is a full header, is DATA, and has the expected number when sequencing is on. A refused one returns -1 with nothing copied and no state change. Out-of-order DATA gets a NACK echoing its number; other refusals get no answer. An accepted one is truncated to the caller's buffer and ACKed, and advances the receive counter when sequencing is on |
| Arq.ReceiveRoundTrip | client.c:366-373 | a DATA datagram with the expected number delivers exactly its payload, cut to the buffer size |
| ClientControl.ListenerStep | client.c:46-47 | a reported count of exactly a configuration's size replaces the whole configuration unchecked. Any other count changes nothing |
| ClientControl.ListenerAsWritten | client.c:44-48 | as written, any datagram at least a configuration long replaces the whole configuration, and nothing else changes |
| ClientControl.ListenerBytes | client.c:45 | `recvfrom` into the 8-byte `config` never reports more than 8 bytes, and reports exactly 8 iff the datagram is at least that long |
| ClientControl.ListenerAdoptsPowerUdp | client.c:45-47 | as written, every PowerUDP datagram that reaches the shared socket (at least a 12-byte header) passes the size test and becomes the configuration |
| ClientControl.ListenerReceive | client.c:44-48 | the intended listener: a datagram replaces the whole configuration iff it is exactly a configuration long. Nothing else changes |
| ClientControl.ListenerIgnoresPowerUdp | client.c:45-47 | with the intended test, no PowerUDP datagram is adopted as a configuration |
| ClientControl.ListenerFixAgrees | client.c:45-47 | the listener as written and the intended one differ exactly on datagrams longer than a configuration whose first bytes differ from the current configuration |
| ClientControl.ListenerLastWins | client.c:44-56 | after any run of datagrams, the intended listener holds the configuration of the last datagram exactly a configuration long, or the one before the run if there was none. Nothing but the configuration changes |
| ClientControl.ReplyAccepted | client.c:93-94 | the two-byte read with `strncmp` accepts exactly the bytes "OK" |
| ClientControl.RegisterRequest | client.c:86-87 | the 64-byte key field starts with the key (when it fits) and is NUL from there on |
| ClientControl.RequestStatus | client.c:81-98 | a request returns 0 iff the connection was made, the record was written whole, and "OK" came back. Otherwise it returns -1 |
| ClientControl.ConfigRequest | client.c:173-179 | each int flag is cut to a byte, so it reads as on iff the argument is nonzero modulo 256. Timeout and retries pass unchanged |
| Registry.PskShape | server.c:17 | the compiled-in key is 26 NUL-free bytes, shorter than the key field |
| Registry.PskMatches | server.c:114 | for a field longer than the key, `strcmp` succeeds iff the field starts with the key followed by a NUL |
| Registry.PskMatchesMeaning | server.c:114 | the `strcmp` succeeds iff the field holds the key followed by a NUL, whatever the bytes after it |
| Registry.Register | server.c:112-165 | the reply is "OK" iff the key matches and a slot is free; otherwise it is "NO" and the table is unchanged. A known IP (whatever the port) reuses its entry: the entry is refreshed and reactivated, its pid is set only if `fork` succeeded, and no other entry changes. A new IP is appended, with pid 0 if `fork` failed |
| Registry.RegisterPreservesValid | server.c:114-137 | registration keeps the table within ten entries, with one entry per IP and no negative pid |
| Registry.ReRegistrationReusesEntry | server.c:118-128 | re-registering from a known IP keeps the count, reactivates and refreshes that entry, and changes no other |
| Registry.FullRegistryRejectsKnownPeer | server.c:114 | capacity is checked before the lookup, so a full table turns away even a peer it already holds |
| Registry.ChildExited | server.c:49-57 | the first entry with the reaped pid becomes inactive with pid 0. Every other entry, and the whole table when no entry has the pid, stays as it was |
| Registry.ReapChildren | server.c:46-59 | reaping keeps the table's length and every entry's address and last-seen time. An entry only ever goes from active to inactive, and its pid stays or becomes 0. A valid table stays valid |
| Registry.ChildExitedClearsPid | server.c:49-57 | after a reap no entry still carries that pid, provided it was recorded at most once |
| ControlPlane.Classify | server.c:112-166 | a request is a registration iff it is 64 bytes. A configuration request is not 64 bytes, is longer than a configuration and starts with 'C'. An unknown one is not 64 bytes and is too short or lacks the 'C' |
| ControlPlane.ClassifyCases | server.c:112-166 | a request is a registration iff it is exactly 64 bytes (even when it starts with 'C'). It is a configuration request iff it is not, has room for a tag and a configuration, and starts with 'C'. Anything else is unknown |
| ControlPlane.ClientRequestsClassified | server.c:112-166 | the records the client writes are dispatched as what they are when they arrive in one read |
| ControlPlane.Clamp | server.c:172-177 | the result meets the minimums (timeout ≥ 100 ms, retries ≥ 1). The flags pass through, and fields already valid are unchanged |
| ControlPlane.ClampFixedPoints | server.c:172-177 | clamping leaves a configuration alone iff it already meets the minimums |
| ControlPlane.ClampIdempotent | server.c:230-235 | the second clamp before publishing never changes what was stored |
| ControlPlane.ClampIsLeastRaise | server.c:172-177 | clamping never lowers a field, and raises it no further than any valid configuration at least as large |
| ControlPlane.ClampScenarios | server.c:172-177 | timeout 0 and retries 0 become 100 and 1. Timeout 50 with retries 2 becomes 100 and 2 |
| ControlPlane.SendCopies | server.c:250-265 | at most three copies are sent, each the stored configuration and each on a successful send. Fewer than three means the next send failed |
| ControlPlane.MulticastConfig | server.c:206-268 | if the socket or its TTL cannot be set up, nothing is sent and the stored configuration is not re-clamped. Otherwise it is re-clamped, and up to three copies of it are sent, stopping at the first failed send |
| ControlPlane.AllSendsSucceed | server.c:250-265 | when every send succeeds, exactly three copies go out |
| ControlPlane.HandleRequest | server.c:96-204 | a failed read closes the connection with no reply and no change. A registration is answered as `Register` decides. A configuration request stores the clamped configuration whatever happens to the reply: if "OK" was written it is multicast, and otherwise "ER" follows and nothing is published. An unknown request gets "ER" and changes nothing |
| ControlPlane.PublishedIsStored | server.c:186-197 | every copy the server publishes is its stored configuration, and that configuration meets the minimums |
| ControlPlane.Step | server.c:330-343 | one connection or one reap never shrinks the table and keeps it valid |
| ControlPlane.Serve | server.c:316-345 | the intended accept loop, which retries `select` after a signal: over any run of connections and reaps the table never shrinks and stays valid, so it never exceeds ten entries |
| ControlPlane.ServeAsWritten | server.c:316-345 | the loop as written stops at the first reap whose SIGCHLD interrupted `select`, and handles every event up to and including it exactly as the intended loop does |
| ControlPlane.ReapStopsServer | server.c:323-328 | as written, a worker that exits while the server waits in `select` ends the accept loop: the connection after it is never handled |
| ControlPlane.ServeAgreesWithoutInterrupt | server.c:316-345 | on a run where no reap interrupts `select`, the loop as written handles every event and ends where the intended loop does |
| Session.KeyFieldNuls | client.c:87 | in the key field a byte is NUL exactly from the end of the key on |
| Session.PskAgreement | server.c:114 | a client's key field passes the server's check iff the client was given exactly the server's key |
| Session.OnlyOkAccepted | client.c:94 | of the server's three replies, only "OK" passes the client's check |
| Session.RegistrationHandshake | server.c:112-165 | the stream exchange of the registration (client.c:81-98) reports success to the client iff the client used the server's key and the table had room. A rejected client leaves the table unchanged |
| Session.ConfigReachesOnlyGroupPort | client.c:107-109 | as written, the server stores and publishes the clamped request, but a listener ends with it exactly when its local port is the group's port 54321 or it already held it. On any other port it keeps its old configuration |
| Session.ConfigPropagates | server.c:166-197 | when the server writes "OK" and publishes at least once, it stores the clamped request and every listener that receives the copies ends with it (the intended delivery of the client.c:108 Findings row). The flags are the client's arguments cut to a byte, and timeout and retries are raised to the minimums |
| Session.Exchange | client.c:280-289 | with matching counters and no loss, the receiver gets the payload and ACKs the sent number. If that ACK answers the first attempt, the send succeeds at once with no retransmission, and the two counters stay equal |
| Session.DuplicateRefused | client.c:346-360 | with sequencing on, a retransmitted datagram that was already accepted is refused with a NACK. The sender does not take that NACK as an acknowledgement |
| Session.DuplicateDeliveredWithoutSequencing | client.c:346-373 | without sequencing, the same retransmission is delivered a second time |

## Left out

- Socket creation, `bind`, `connect`, `select`, `setsockopt`, `inet_pton` and `getsockname` are not modelled. Their outcomes are inputs. The `select` wait itself is reduced to "the response that arrived within this attempt's timeout, or none".
- `rand()`, `srand`, `clock()` and `time()` are inputs. `get_last_message_stats` (client.c:390-395) is not modelled: it copies out `last_retransmissions`, which the model keeps as `Endpoint.lastRetransmissions`, and `last_delivery_time`, which comes from the clock.
- The listener thread and the data path both call `recvfrom` on `udp_sock`. Which of them gets a given datagram depends on scheduling; the model gives each datagram to one reader as an input.
- The run of a listener over many datagrams (`ListenerRun`) folds the intended listener from the Findings, not the one as written, which would also adopt PowerUDP datagrams.
- The listener thread runs concurrently with `send_message`, which reads `enable_backoff`, `enable_retransmission` and `enable_sequence` field by field on every attempt. The model reads one configuration snapshot per send. Torn reads across threads are not modelled.
- `fork`, `waitpid`, `kill`, `handle_signal`, `handle_client` (a worker that only sleeps) and the final `wait` loop are not modelled. A fork result is an input; a reaped pid is an event of the accept loop, marked when its SIGCHLD interrupted `select`.
- The byte layout of the records (padding, host byte order) is not modelled. A datagram is a header value plus a payload, and a configuration request's bytes are given together with the configuration they denote.
- Stream framing is not modelled. The model assumes a request arrives in one `read`. In C, the one-byte 'C' tag and the configuration are two writes, so they can be read separately, and the server then sees a 1-byte request.
- `inet_pton` is not modelled. The address part of the destination stays bytes.
- `atoi` overflow on very long digit strings is not modelled (C leaves it undefined); the model reads the mathematical value and then cuts it to 16 bits.
- Arq.TimeoutAsWritten: stated only for attempts up to 30. For larger attempts `1 << attempts` is itself undefined in C, and the retry counter reaches up to 255.
- Arq.ReceiveMessage: excludes two undefined `memcpy`s by its precondition. One is the case where both the length field and `bufsize` exceed the 1024-byte payload buffer (the copy would read past it). The other is a negative `bufsize`.
- Arq.SendMessage: each attempt's logged wait is the intended `Arq.Timeout` (base·2^attempt), not the 32-bit product of client.c:257 (see Findings). Where that product wraps negative, C builds an invalid `timeval`, `select` fails and the attempt can get no reply; the model's response oracle still lets such an attempt be acknowledged.
- Arq.SendLoopMeaning: the per-attempt log entries carry the intended `Arq.Timeout`, not `Arq.TimeoutAsWritten`, for the reason in the line above.
- Arq.Acks: uses the intended runt guard, so a failed `recvfrom` is never an acknowledgement; `Arq.SendMessage` inherits this. At client.c:280 the same `(size_t)` cast as in the Findings row lets -1 through, and the header then read from `resp` is uninitialised memory, which the model cannot give a value.
- Arq.SendMessage: models a payload length of zero or more. A negative `len` passes the size check in C and makes `memcpy` undefined.
- ClientControl.RequestStatus: treats the unchecked write of the 'C' tag as succeeded. A failed tag write is not modelled.
- `close_protocol` and the UDP part of `init_protocol_with_port` (client.c:101-146: socket, `bind`, multicast join, thread start) are not modelled. The port `getsockname` reports when port 0 was asked for (client.c:116-121) is an input: it is `Endpoint.localPort`, the default port of `SplitDestination`.
- Session.ConfigPropagates: whether a listener receives the published copies is an input: it is given every copy. In C that happens only when the client's local UDP port is 54321, since the copies go to the group's port and the client's one UDP socket is bound to its own port (`Session.ConfigReachesOnlyGroupPort`).
- Session.RegistrationHandshake: covers the stream exchange of client.c:81-98 only. A failed UDP `socket` or `bind` (client.c:102-113) makes `init_protocol_with_port` return -1 even though the server accepted the key and keeps the new entry.

Some behaviour of the C code worth stating plainly, since a reader might expect otherwise:

- the backoff timeout has no cap, and its exponent is the attempt number itself;
- a received payload longer than the caller's buffer is truncated, not refused;
- the listener adopts a configuration without clamping it;
- each attempt takes at most one response and does not keep waiting after a wrong one;
- capacity is checked before the lookup, so a full table rejects a known peer;
- a requested timeout below 100 ms is raised to 100 ms.

## Findings

| source | as written | input that shows it | evidently intended | confidence | as-written member | corrected member |
|---|---|---|---|---|---|---|
| client.c:336 | `(size_t)received < sizeof(PowerUDPHeader)` casts `recvfrom`'s -1 to a huge unsigned value, so an error passes the runt test. The code then reads an uninitialised header (the same cast guards the ACK check at client.c:280) | `recvfrom` returns -1 | an error or a short datagram is refused | high, not executed | Arq.RecvErrorPassesGuard | Arq.ReceiveMessage |
| client.c:45-47 | `recvfrom` into the 8-byte `config` cuts a longer datagram and returns 8, so the `received == sizeof(ConfigMessage)` test passes every datagram of 8 bytes or more. The socket is the one `send_message` and `receive_message` use, so a DATA, ACK or NACK datagram the listener reads becomes the configuration | a 12-byte ACK reaches the listener thread | only a datagram exactly a configuration long is adopted | medium, not executed | ClientControl.ListenerAdoptsPowerUdp | ClientControl.ListenerReceive |
| server.c:323-328 | SIGCHLD is handled by `handle_child_signal`, and `select` is never restarted after a signal handler, so a worker exiting while the server waits fails `select` with EINTR. `if (ret < 0) … break;` then ends the accept loop, and the server blocks in `while (wait(NULL) > 0);` (server.c:351) while its other workers sleep | a registered worker is killed while the server waits in `select` | the loop retries `select` on EINTR and keeps serving | medium, not executed | ControlPlane.ReapStopsServer | ControlPlane.Serve |
| client.c:108 | the client's only UDP socket is bound to `local_udp_port`, which is random when port 0 is asked for (client.c:116-121), and `MCAST_PORT` (client.c:18) is never used. The server sends its copies to 239.0.0.1:54321 (server.c:239), and UDP delivers a datagram only to a socket bound to its destination port, so a client on any other port never receives a configuration change | a client initialised with port 0 asks the server for a new configuration | every client's listener receives the group's datagrams | medium, not executed | Session.ConfigReachesOnlyGroupPort | Session.ConfigPropagates |
| client.c:257 | `tbase * (1 << attempts)` is a 32-bit signed product, so large retry counts overflow to a negative or wrong timeout | base timeout 1000, backoff on, attempt 22 (max_retries ≥ 22) | the wait doubles with each retry and stays positive | high, not executed | Arq.TimeoutOverflowWitness | Arq.Timeout |

=== FILE: arq.dfy ===
/**
 * The client's stop-and-wait engine: `send_message` with its retry loop,
 * per-attempt timeout and injected loss, and `receive_message` with its
 * accept rule.
 *
 * What the network, the clock and `rand()` would supply is given as oracle
 * input: for each attempt a send makes, the random draw that decides the
 * injected loss and the datagram (if any) that arrived before the attempt's
 * timeout; for each receive, what `recvfrom` returned.
 */
module Arq {
  import opened Base
  import opened Wire
  import opened Destination

  type Percent = p: int | 0 <= p <= 100

  /**
   * The per-process client state: the configuration in force, both sequence
   * counters, the injected loss percentage, the retransmission count of the
   * last send, and the local UDP port (the default destination port).
   */
  datatype Endpoint = Endpoint(
    config: ConfigMessage,
    sendSeq: u32,
    recvSeq: u32,
    loss: Percent,
    lastRetransmissions: nat,
    localPort: int)

  function InitialEndpoint(localPort: int): Endpoint
  {
    Endpoint(DEFAULT_CONFIG, 0, 0, 0, 0, localPort)
  }

  // ---------------------------------------------------------------------
  // Injected loss

  /** `inject_packet_loss`: the percentage is clamped into [0, 100]; nothing else changes. */
  function InjectPacketLoss(e: Endpoint, probability: int): (r: Endpoint)
    ensures r == e.(loss := r.loss)
    ensures 0 <= probability <= 100 ==> r.loss == probability
    ensures probability < 0 ==> r.loss == 0
    ensures probability > 100 ==> r.loss == 100
  {
    var p := if probability < 0 then 0 else if probability > 100 then 100 else probability;
    e.(loss := p)
  }

  /** `should_drop_packet` for a draw of `rand()` (never negative). */
  function ShouldDrop(loss: Percent, draw: nat): (drop: bool)
    // The `loss <= 0` early return changes nothing for a clamped percentage.
    ensures drop <==> draw % 100 < loss
    ensures loss == 0 ==> !drop
    ensures loss == 100 ==> drop
  {
    loss > 0 && draw % 100 < loss
  }

  /** Whatever is injected, 0% or less never drops and 100% or more drops every transmission. */
  lemma LossExtremes(e: Endpoint, probability: int, draw: nat)
    ensures probability <= 0 ==> !ShouldDrop(InjectPacketLoss(e, probability).loss, draw)
    ensures probability >= 100 ==> ShouldDrop(InjectPacketLoss(e, probability).loss, draw)
  {
  }

  /** How many of the draws 0 .. n-1 are dropped. */
  function DropCount(loss: Percent, n: nat): nat
  {
    if n == 0 then 0 else DropCount(loss, n - 1) + (if ShouldDrop(loss, n - 1) then 1 else 0)
  }

  /**
   * Over one period of `rand() % 100`, exactly `loss` of the hundred residues
   * drop the packet: the injected rate is the configured percentage.
   */
  lemma {:induction false} DropRate(loss: Percent)
    ensures DropCount(loss, 100) == loss
  {
    DropCountBelow(loss, 100);
  }

  lemma {:induction false} DropCountBelow(loss: Percent, n: nat)
    requires n <= 100
    ensures DropCount(loss, n) == Min(n, loss)
  {
    if n > 0 {
      DropCountBelow(loss, n - 1);
      assert ShouldDrop(loss, n - 1) <==> n - 1 < loss;
    }
  }

  // ---------------------------------------------------------------------
  // Per-attempt timeout

  /**
   * The wait after attempt `attempt`: the base timeout, doubled per attempt
   * when backoff is on (but never for the first attempt). There is no cap.
   */
  function Timeout(base: u16, backoff: bool, attempt: nat): (t: nat)
    ensures t >= base
    ensures !backoff || attempt == 0 ==> t == base
  {
    if backoff && attempt > 0 then base * Pow2(attempt) else base
  }

  /** With backoff on, each attempt after the first waits twice as long as the one before it. */
  lemma TimeoutDoubles(base: u16, attempt: nat)
    ensures Timeout(base, true, attempt + 1) == 2 * Timeout(base, true, attempt)
  {
    assert Pow2(attempt + 1) == 2 * Pow2(attempt);
    assert base * Pow2(attempt + 1) == 2 * (base * Pow2(attempt));
  }

  /** With backoff on, attempt `n` waits the base timeout times 2^n. */
  lemma {:induction false} TimeoutClosedForm(base: u16, n: nat)
    ensures Timeout(base, true, n) == base * Pow2(n)
  {
    if n > 0 {
      TimeoutClosedForm(base, n - 1);
      TimeoutDoubles(base, n - 1);
      assert Pow2(n) == 2 * Pow2(n - 1);
      assert base * Pow2(n) == 2 * (base * Pow2(n - 1));
    }
  }

  /** Later attempts never wait less. */
  lemma TimeoutMonotone(base: u16, backoff: bool, a: nat, b: nat)
    requires a <= b
    ensures Timeout(base, backoff, a) <= Timeout(base, backoff, b)
  {
    if backoff && a > 0 {
      Pow2Monotone(a, b);
    }
  }

  /** With backoff on and a nonzero base, the timeout exceeds every bound. */
  lemma TimeoutUncapped(base: u16, bound: nat)
    requires base >= 1
    ensures Timeout(base, true, bound + 1) > bound
  {
    var p := Pow2(bound + 1);
    Pow2ExceedsExponent(bound + 1);
    assert base * p >= p by {
      assert base * p == p + (base - 1) * p;
    }
  }

  /** A value reduced to C's 32-bit two's-complement `int`. */
  function ToInt32(x: int): (r: int)
    ensures -0x8000_0000 <= r < 0x8000_0000
    ensures -0x8000_0000 <= x < 0x8000_0000 ==> r == x
  {
    var m := x % 0x1_0000_0000;
    if m >= 0x8000_0000 then m - 0x1_0000_0000 else m
  }

  /**
   * The timeout as the C code computes it, `tbase * (1 << attempts)` in a
   * 32-bit `int` (defined only for shifts below 31), with the product wrapping.
   */
  function TimeoutAsWritten(base: u16, backoff: bool, attempt: nat): (t: int)
    requires attempt <= 30
    ensures Timeout(base, backoff, attempt) < 0x8000_0000 ==> t == Timeout(base, backoff, attempt)
  {
    if backoff && attempt > 0 then ToInt32(base * Pow2(attempt)) else base
  }

  /**
   * With the default base of 1000 ms and 22 retries allowed (max_retries is a
   * u8), the 23rd attempt's computed timeout is negative.
   */
  lemma TimeoutOverflowWitness()
    ensures Timeout(1000, true, 22) == 4_194_304_000
    ensures TimeoutAsWritten(1000, true, 22) < 0
  {
    Pow2Add(2, 2);
    Pow2Add(4, 4);
    Pow2Add(8, 8);
    Pow2Add(16, 4);
    Pow2Add(20, 2);
  }

  // ---------------------------------------------------------------------
  // Sending

  /** What arrived while an attempt waited: nothing, or a datagram of `size` bytes. */
  datatype Response = Silence | Reply(size: int, kind: u8, seqNum: u32)

  /** The oracle for one attempt: the `rand()` draw and the response. */
  datatype Attempt = Attempt(draw: nat, response: Response)

  /** What one attempt did: whether the packet was really transmitted, and how long it waited. */
  datatype AttemptLog = AttemptLog(transmitted: bool, timeout: nat)

  /** A received byte count too small to hold a header (an error return of -1 included). */
  predicate IsRunt(size: int)
  {
    size < HEADER_SIZE
  }

  /**
   * The guard as the C code writes it, `(size_t)received < sizeof(PowerUDPHeader)`:
   * the cast turns recvfrom's error return into a huge unsigned value.
   */
  predicate RuntAsWritten(size: int)
  {
    size % 0x1_0000_0000_0000_0000 < HEADER_SIZE
  }

  /** A failed recvfrom (-1) is not caught by the guard as written. */
  lemma RecvErrorPassesGuard()
    ensures IsRunt(-1) && !RuntAsWritten(-1)
  {
  }

  /** The two guards agree on every byte count recvfrom can report for a datagram. */
  lemma RuntGuardsAgree(size: int)
    requires 0 <= size < 0x8000_0000_0000_0000
    ensures IsRunt(size) <==> RuntAsWritten(size)
  {
  }

  /** The only response that ends a send successfully: an ACK echoing the sent sequence number. */
  function Acks(r: Response, seqNum: u32): (ack: bool)
    ensures ack ==> r.Reply? && r == Reply(r.size, PUDP_ACK, seqNum) && r.size >= HEADER_SIZE
    // A NACK, an answer for another number, a runt and silence never acknowledge ...
    ensures r.Reply? && (r.kind == PUDP_NACK || r.seqNum != seqNum || r.size < HEADER_SIZE) ==> !ack
    ensures r.Silence? ==> !ack
    // ... while the ACK header `receive_message` sends back always does.
    ensures r == Reply(HEADER_SIZE, PUDP_ACK, seqNum) ==> ack
  {
    r.Reply? && !IsRunt(r.size) && r.seqNum == seqNum && r.kind == PUDP_ACK
  }

  /** How many attempts a send may make: all max_retries+1, or just one without retransmission. */
  function AttemptBudget(c: ConfigMessage): (n: nat)
    ensures 1 <= n <= c.maxRetries + 1
  {
    if On(c.retransmission) then c.maxRetries + 1 else 1
  }

  function LogEntry(c: ConfigMessage, loss: Percent, outcomes: seq<Attempt>, k: nat): AttemptLog
    requires k < |outcomes|
  {
    AttemptLog(!ShouldDrop(loss, outcomes[k].draw), Timeout(c.baseTimeout, On(c.backoff), k))
  }

  /** The loop's outcome: whether an ACK came, the final `attempts` counter, and each attempt made. */
  datatype LoopResult = LoopResult(acked: bool, failures: nat, log: seq<AttemptLog>)

  /** The `while (!success && attempts <= max)` loop of `send_message`, from attempt `attempt` on. */
  function SendLoop(c: ConfigMessage, loss: Percent, seqNum: u32, outcomes: seq<Attempt>, attempt: nat): (r: LoopResult)
    requires |outcomes| > c.maxRetries
    requires attempt <= c.maxRetries + 1
    ensures attempt <= r.failures <= c.maxRetries + 1
    ensures r.acked ==> r.failures <= c.maxRetries
    decreases c.maxRetries + 1 - attempt
  {
    if attempt > c.maxRetries then LoopResult(false, attempt, [])
    else
      var entry := LogEntry(c, loss, outcomes, attempt);
      if Acks(outcomes[attempt].response, seqNum) then LoopResult(true, attempt, [entry])
      else if !On(c.retransmission) then LoopResult(false, attempt, [entry])
      else
        var rest := SendLoop(c, loss, seqNum, outcomes, attempt + 1);
        LoopResult(rest.acked, rest.failures, [entry] + rest.log)
  }

  /** The attempts from `attempt` on that the loop may make end here (exclusive). */
  function LoopBound(c: ConfigMessage, attempt: nat): nat
  {
    if On(c.retransmission) then c.maxRetries + 1 else attempt + 1
  }

  /**
   * The loop acknowledges iff some attempt it may make got a matching ACK;
   * it stops at the first such attempt, logs exactly the attempts made, and
   * otherwise runs out its budget.
   */
  lemma {:induction false} SendLoopMeaning(c: ConfigMessage, loss: Percent, seqNum: u32, outcomes: seq<Attempt>, attempt: nat)
    requires |outcomes| > c.maxRetries
    requires attempt <= c.maxRetries
    ensures var r := SendLoop(c, loss, seqNum, outcomes, attempt);
      && (r.acked <==> exists k :: attempt <= k < LoopBound(c, attempt) && Acks(outcomes[k].response, seqNum))
      && (r.acked ==> r.failures < LoopBound(c, attempt) && Acks(outcomes[r.failures].response, seqNum))
      && (r.acked ==> forall k :: attempt <= k < r.failures ==> !Acks(outcomes[k].response, seqNum))
      && (!r.acked ==> r.failures == if On(c.retransmission) then c.maxRetries + 1 else attempt)
      && |r.log| == (if r.acked then r.failures + 1 else LoopBound(c, attempt)) - attempt
      && (forall i :: 0 <= i < |r.log| ==> r.log[i] == LogEntry(c, loss, outcomes, attempt + i))
    decreases c.maxRetries - attempt
  {
    var r := SendLoop(c, loss, seqNum, outcomes, attempt);
    var entry := LogEntry(c, loss, outcomes, attempt);
    if Acks(outcomes[attempt].response, seqNum) {
      assert r == LoopResult(true, attempt, [entry]);
    } else if !On(c.retransmission) {
      assert r == LoopResult(false, attempt, [entry]);
      assert LoopBound(c, attempt) == attempt + 1;
    } else if attempt < c.maxRetries {
      SendLoopMeaning(c, loss, seqNum, outcomes, attempt + 1);
      var rest := SendLoop(c, loss, seqNum, outcomes, attempt + 1);
      assert r == LoopResult(rest.acked, rest.failures, [entry] + rest.log);
      assert LoopBound(c, attempt) == LoopBound(c, attempt + 1);
      forall i | 0 <= i < |r.log|
        ensures r.log[i] == LogEntry(c, loss, outcomes, attempt + i)
      {
        if i > 0 {
          assert r.log[i] == rest.log[i - 1];
        }
      }
    } else {
      assert SendLoop(c, loss, seqNum, outcomes, attempt + 1) == LoopResult(false, attempt + 1, []);
      assert r == LoopResult(false, attempt + 1, [entry]);
    }
  }

  /** Where a send goes and the datagram it sends on every transmission. */
  datatype Outbound = Outbound(target: Target, packet: Datagram)

  datatype SendResult = SendResult(ret: int, endpoint: Endpoint, outbound: Option<Outbound>, log: seq<AttemptLog>)

  /**
   * `send_message` on one configuration snapshot. It returns the payload
   * length on success and -1 otherwise.
   */
  function SendMessage(e: Endpoint, destination: CString, payload: seq<u8>, outcomes: seq<Attempt>): (r: SendResult)
    requires |outcomes| > e.config.maxRetries
    // An oversize payload is refused before anything happens.
    ensures |payload| > MAX_UDP_DATA ==> r == SendResult(-1, e, None, [])
    ensures |payload| <= MAX_UDP_DATA ==>
      var c := e.config;
      var success := r.ret == |payload|;
      var k := r.endpoint.lastRetransmissions;
      && r.outbound == Some(Outbound(SplitDestination(destination, e.localPort), DataPacket(e.sendSeq, payload)))
      && (r.ret == |payload| || r.ret == -1)
      // Success iff an attempt within the budget saw an ACK of the sent sequence number ...
      && (success <==> exists j :: 0 <= j < AttemptBudget(c) && Acks(outcomes[j].response, e.sendSeq))
      // ... and then it is the first such attempt, after `k` failed ones.
      && (success ==> k < AttemptBudget(c) && Acks(outcomes[k].response, e.sendSeq) && |r.log| == k + 1)
      && (success ==> forall j :: 0 <= j < k ==> !Acks(outcomes[j].response, e.sendSeq))
      // A failed send used its whole budget; only with retransmission are failures counted.
      && (!success ==> |r.log| == AttemptBudget(c))
      && (!success ==> k == if On(c.retransmission) then c.maxRetries + 1 else 0)
      && (forall i :: 0 <= i < |r.log| ==> r.log[i] == LogEntry(c, e.loss, outcomes, i))
      // Only a success with sequencing on advances the send counter, by one.
      && r.endpoint.sendSeq == (if success && On(c.sequence) then Inc32(e.sendSeq) else e.sendSeq)
      && r.endpoint == e.(sendSeq := r.endpoint.sendSeq, lastRetransmissions := k)
  {
    if |payload| > MAX_UDP_DATA then SendResult(-1, e, None, [])
    else
      var c := e.config;
      var packet := DataPacket(e.sendSeq, payload);
      var loop := SendLoop(c, e.loss, e.sendSeq, outcomes, 0);
      SendLoopMeaning(c, e.loss, e.sendSeq, outcomes, 0);
      assert LoopBound(c, 0) == AttemptBudget(c);
      var next := if loop.acked && On(c.sequence) then Inc32(e.sendSeq) else e.sendSeq;
      SendResult(
        if loop.acked then |payload| else -1,
        e.(sendSeq := next, lastRetransmissions := loop.failures),
        Some(Outbound(SplitDestination(destination, e.localPort), packet)),
        loop.log)
  }

  // ---------------------------------------------------------------------
  // Receiving

  /**
   * What `recvfrom` left behind: its return value, the header it filled in,
   * and the whole MAX_UDP_DATA-byte payload buffer, whose bytes beyond the
   * datagram keep whatever they held before.
   */
  datatype Arrival = Arrival(size: int, header: Header, buffer: seq<u8>)

  /** The arrival of a well-formed datagram over a buffer holding `stale`. */
  function Deliver(d: Datagram, stale: seq<u8>): (a: Arrival)
    requires WellFormed(d)
    requires |stale| == MAX_UDP_DATA
    ensures |a.buffer| == MAX_UDP_DATA
    ensures a.size == WireSize(d) && a.header == d.header
    ensures a.buffer[..|d.payload|] == d.payload
  {
    Arrival(WireSize(d), d.header, d.payload + stale[|d.payload|..])
  }

  /** The accept rule: a full header, the DATA tag and, with sequencing on, the expected number. */
  predicate Accepts(e: Endpoint, a: Arrival)
  {
    && !IsRunt(a.size)
    && a.header.kind == PUDP_DATA
    && (On(e.config.sequence) ==> a.header.seqNum == e.recvSeq)
  }

  /** What `receive_message` returns, copies out, answers, and leaves behind. */
  datatype ReceiveResult = ReceiveResult(ret: int, data: seq<u8>, reply: Option<Header>, endpoint: Endpoint)

  /**
   * `receive_message(buffer, bufsize)`. The copy never reaches past the
   * payload buffer: the C code reads out of bounds when both the length
   * field and `bufsize` exceed MAX_UDP_DATA, which the precondition excludes.
   * The copy is the length field cut to the caller's buffer.
   */
  function ReceiveMessage(e: Endpoint, a: Arrival, bufsize: int): (r: ReceiveResult)
    requires |a.buffer| == MAX_UDP_DATA
    requires bufsize >= 0
    requires Min(a.header.dataLen, bufsize) <= MAX_UDP_DATA
    ensures r.ret >= 0 <==> Accepts(e, a)
    // Refused datagrams: -1, nothing copied, state untouched.
    ensures !Accepts(e, a) ==> r.ret == -1 && r.data == [] && r.endpoint == e
    // Short or non-DATA datagrams get no answer at all.
    ensures IsRunt(a.size) || a.header.kind != PUDP_DATA ==> r.reply == None
    // An out-of-order DATA datagram is answered by a NACK echoing its number.
    ensures !IsRunt(a.size) && a.header.kind == PUDP_DATA && !Accepts(e, a) ==>
      r.reply == Some(Control(PUDP_NACK, a.header.seqNum))
    // An accepted one is truncated to the caller's buffer, ACKed, and counted.
    ensures Accepts(e, a) ==>
      && r.ret == Min(a.header.dataLen, bufsize)
      && r.data == a.buffer[..Min(a.header.dataLen, bufsize)]
      && r.reply == Some(Control(PUDP_ACK, a.header.seqNum))
      && r.endpoint.recvSeq == (if On(e.config.sequence) then Inc32(e.recvSeq) else e.recvSeq)
      && r.endpoint == e.(recvSeq := r.endpoint.recvSeq)
  {
    if IsRunt(a.size) || a.header.kind != PUDP_DATA then ReceiveResult(-1, [], None, e)
    else if On(e.config.sequence) && a.header.seqNum != e.recvSeq then
      ReceiveResult(-1, [], Some(Control(PUDP_NACK, a.header.seqNum)), e)
    else
      var next := if On(e.config.sequence) then Inc32(e.recvSeq) else e.recvSeq;
      var n := Min(a.header.dataLen, bufsize);
      ReceiveResult(n, a.buffer[..n], Some(Control(PUDP_ACK, a.header.seqNum)), e.(recvSeq := next))
  }

  /**
   * A DATA datagram carrying the expected number arrives intact: the caller
   * gets the payload, cut to its buffer, and nothing else.
   */
  lemma ReceiveRoundTrip(e: Endpoint, payload: seq<u8>, stale: seq<u8>, bufsize: nat)
    requires |payload| <= MAX_UDP_DATA
    requires |stale| == MAX_UDP_DATA
    ensures var r := ReceiveMessage(e, Deliver(DataPacket(e.recvSeq, payload), stale), bufsize);
      && r.ret == Min(|payload|, bufsize)
      && r.data == payload[..r.ret]
  {
    var a := Deliver(DataPacket(e.recvSeq, payload), stale);
    var n := Min(|payload|, bufsize);
    assert a.buffer[..n] == a.buffer[..|payload|][..n];
  }

  /** The datagram an ACK or NACK header becomes when it reaches the sender. */
  function AsResponse(h: Header): (r: Response)
    ensures r.Reply? && !IsRunt(r.size)
  {
    Reply(HEADER_SIZE, h.kind, h.seqNum)
  }
}

=== FILE: base.dfy ===
/**
 * Fixed-width integers, an Option type, first-match search, powers of two
 * and the C string comparisons and copies that the PowerUDP code relies on.
 */
module Base {

  /** C's uint8_t, uint16_t and uint32_t as ranges of the unbounded integers. */
  type u8 = x: int | 0 <= x < 0x100
  type u16 = x: int | 0 <= x < 0x1_0000
  type u32 = x: int | 0 <= x < 0x1_0000_0000

  /** A process id as returned to a parent by a successful fork or waitpid. */
  type Pid = p: int | p > 0 witness 1

  datatype Option<+T> = None | Some(value: T)

  function Min(a: int, b: int): (r: int)
    ensures r <= a && r <= b
    ensures r == a || r == b
  {
    if a <= b then a else b
  }

  /** `x++` on a uint32_t: wraps from 2^32-1 back to 0. */
  function Inc32(x: u32): (r: u32)
    ensures x < 0xFFFF_FFFF ==> r == x + 1
    ensures x == 0xFFFF_FFFF ==> r == 0
  {
    (x + 1) % 0x1_0000_0000
  }

  /** A counter incremented `n` times. */
  function IncBy(x: u32, n: nat): u32
  {
    if n == 0 then x else Inc32(IncBy(x, n - 1))
  }

  /** `n` increments add `n` modulo 2^32. */
  lemma {:induction false} IncByMod(x: u32, n: nat)
    ensures IncBy(x, n) == (x + n) % 0x1_0000_0000
  {
    if n == 0 {
      assert x % 0x1_0000_0000 == x;
    } else {
      var prev := IncBy(x, n - 1);
      assert prev == (x + n - 1) % 0x1_0000_0000 by { IncByMod(x, n - 1); }
      assert (x + n) % 0x1_0000_0000 == Inc32(prev) by { ModSucc(x + n - 1, prev); }
      assert IncBy(x, n) == Inc32(prev);
    }
  }

  /** Adding one to a number adds one to its residue modulo 2^32, wrapping at 2^32. */
  lemma ModSucc(a: nat, m: u32)
    requires m == a % 0x1_0000_0000
    ensures (a + 1) % 0x1_0000_0000 == Inc32(m)
  {
    var q := a / 0x1_0000_0000;
    if m < 0xFFFF_FFFF {
      assert a + 1 == q * 0x1_0000_0000 + (m + 1);
    } else {
      assert a + 1 == (q + 1) * 0x1_0000_0000;
    }
  }

  /** A counter returns to where it started exactly after a multiple of 2^32 increments. */
  lemma IncByCycle(x: u32, n: nat)
    ensures IncBy(x, n) == x <==> n % 0x1_0000_0000 == 0
  {
    IncByMod(x, n);
    var q := n / 0x1_0000_0000;
    var m := n % 0x1_0000_0000;
    assert x + n == q * 0x1_0000_0000 + (x + m);
    if x + m < 0x1_0000_0000 {
      assert (x + n) % 0x1_0000_0000 == x + m;
    } else {
      assert x + n == (q + 1) * 0x1_0000_0000 + (x + m - 0x1_0000_0000);
      assert (x + n) % 0x1_0000_0000 == x + m - 0x1_0000_0000;
    }
  }

  /** The conversion of an int to uint8_t (C's `(uint8_t)x`): reduction modulo 2^8. */
  function ToU8(x: int): (r: u8)
    ensures 0 <= x < 0x100 ==> r == x
    ensures (x - r) % 0x100 == 0
  {
    x % 0x100
  }

  /** The conversion of an int to uint16_t (what `htons(port)` keeps of an int port). */
  function ToU16(x: int): (r: u16)
    ensures 0 <= x < 0x1_0000 ==> r == x
    ensures (x - r) % 0x1_0000 == 0
  {
    x % 0x1_0000
  }

  function Pow2(n: nat): (r: nat)
    ensures r >= 1
  {
    if n == 0 then 1 else 2 * Pow2(n - 1)
  }

  lemma {:induction false} Pow2Monotone(m: nat, n: nat)
    requires m <= n
    ensures Pow2(m) <= Pow2(n)
    decreases n - m
  {
    if m < n {
      Pow2Monotone(m, n - 1);
    }
  }

  lemma {:induction false} Pow2Add(m: nat, n: nat)
    ensures Pow2(m + n) == Pow2(m) * Pow2(n)
  {
    if n > 0 {
      Pow2Add(m, n - 1);
      assert Pow2(m + n) == 2 * Pow2(m + n - 1);
    }
  }

  lemma {:induction false} Pow2ExceedsExponent(n: nat)
    ensures Pow2(n) > n
  {
    if n > 0 {
      Pow2ExceedsExponent(n - 1);
    }
  }

  /** The index of the first element satisfying `p`, as a `for` loop with a `break` finds it. */
  function FirstWhere<T>(s: seq<T>, p: T -> bool): (r: Option<nat>)
    ensures r.Some? ==> r.value < |s| && p(s[r.value])
    ensures r.Some? ==> forall j :: 0 <= j < r.value ==> !p(s[j])
    ensures r.None? <==> forall j :: 0 <= j < |s| ==> !p(s[j])
  {
    if |s| == 0 then None
    else if p(s[0]) then Some(0)
    else match FirstWhere(s[1..], p)
      case None => None
      case Some(i) => Some(i + 1)
  }

  /** An element that satisfies `p` with none before it is the one FirstWhere finds. */
  lemma FirstWhereAt<T>(s: seq<T>, p: T -> bool, k: nat)
    requires k < |s| && p(s[k])
    requires forall j :: 0 <= j < k ==> !p(s[j])
    ensures FirstWhere(s, p) == Some(k)
  {
  }

  // ---------------------------------------------------------------------
  // C strings. A byte sequence stands for a char buffer; reading at or
  // past its end yields the terminating NUL.

  function At(s: seq<u8>, i: nat): u8
  {
    if i < |s| then s[i] else 0
  }

  predicate NoNul(s: seq<u8>)
  {
    forall i :: 0 <= i < |s| ==> s[i] != 0
  }

  /** `strncmp(a + i, b + i, n - i) == 0`: equal up to the first NUL or position n. */
  function StrNEqFrom(a: seq<u8>, b: seq<u8>, n: nat, i: nat): bool
    decreases n - i
  {
    if i >= n then true
    else if At(a, i) != At(b, i) then false
    else if At(a, i) == 0 then true
    else StrNEqFrom(a, b, n, i + 1)
  }

  /** `strcmp(a, b) == 0`; no comparison reaches past |a| + |b| + 1 characters. */
  predicate StrEq(a: seq<u8>, b: seq<u8>)
  {
    StrNEqFrom(a, b, |a| + |b| + 1, 0)
  }

  /**
   * Comparing a buffer with a NUL-free key shorter than the buffer succeeds
   * exactly when the buffer holds the key followed by a NUL: strcmp never
   * looks past that NUL, whatever the rest of the buffer holds.
   */
  lemma StrEqKey(a: seq<u8>, key: seq<u8>)
    requires NoNul(key)
    requires |key| < |a|
    ensures StrEq(a, key) <==> a[..|key|] == key && a[|key|] == 0
  {
    StrEqKeyFrom(a, key, |a| + |key| + 1, 0);
    assert a[0..|key|] == a[..|key|];
  }

  lemma {:induction false} StrEqKeyFrom(a: seq<u8>, key: seq<u8>, n: nat, i: nat)
    requires NoNul(key)
    requires |key| < |a| && |key| < n
    requires i <= |key|
    ensures StrNEqFrom(a, key, n, i) <==> a[i..|key|] == key[i..] && a[|key|] == 0
    decreases |key| - i
  {
    if i < |key| {
      assert At(key, i) == key[i] != 0;
      if a[i] == key[i] {
        StrEqKeyFrom(a, key, n, i + 1);
        assert a[i..|key|] == [a[i]] + a[i + 1..|key|];
        assert key[i..] == [key[i]] + key[i + 1..];
      } else {
        assert a[i..|key|][0] != key[i..][0];
      }
    }
  }

  function Zeros(n: nat): (r: seq<u8>)
    ensures |r| == n
    ensures forall i :: 0 <= i < n ==> r[i] == 0
  {
    seq(n, _ => 0)
  }

  /**
   * `strncpy(dst, src, n)` for a NUL-free source: copies at most n bytes of
   * the source and fills the rest of the n-byte destination with NULs.
   */
  function StrNCpy(src: seq<u8>, n: nat): (r: seq<u8>)
    requires NoNul(src)
    ensures |r| == n
    ensures r[..Min(|src|, n)] == src[..Min(|src|, n)]
    ensures forall i :: Min(|src|, n) <= i < n ==> r[i] == 0
  {
    var k := Min(|src|, n);
    src[..k] + Zeros(n - k)
  }

  /** The bytes of an ASCII text. */
  function Ascii(s: string): (r: seq<u8>)
    requires forall i :: 0 <= i < |s| ==> s[i] as int < 0x80
    ensures |r| == |s|
    ensures forall i :: 0 <= i < |s| ==> r[i] == s[i] as int
  {
    seq(|s|, i requires 0 <= i < |s| => s[i] as int)
  }
}

=== FILE: client_control.dfy ===
/**
 * The client's side of the control plane: the multicast listener that swaps
 * in a new configuration, the registration and configuration requests sent
 * over the stream connection, and the check of the server's two-byte reply.
 */
module ClientControl {
  import opened Base
  import opened Wire
  import opened Arq

  // ---------------------------------------------------------------------
  // Multicast listener

  /**
   * The listener's test on the count `recvfrom` reported: a count of exactly
   * sizeof(ConfigMessage) replaces the whole configuration (no field is
   * checked or clamped); any other count is ignored.
   */
  function ListenerStep(e: Endpoint, received: int, view: ConfigMessage): (r: Endpoint)
    ensures r == e.(config := r.config)
    ensures r.config == (if received == CONFIG_SIZE then view else e.config)
  {
    if received == CONFIG_SIZE then e.(config := view) else e
  }

  /**
   * A datagram reaching the listener's socket: its length in bytes (negative
   * when `recvfrom` fails) and its first bytes read as a configuration.
   */
  datatype Broadcast = Broadcast(size: int, view: ConfigMessage)

  /**
   * The count `recvfrom` returns when it reads a datagram of `size` bytes
   * into the 8-byte `config`: a longer datagram is cut to the buffer and the
   * count is what was stored, so it never exceeds sizeof(ConfigMessage).
   */
  function ListenerBytes(size: int): (n: int)
    ensures n <= CONFIG_SIZE
    ensures size >= CONFIG_SIZE <==> n == CONFIG_SIZE
  {
    if size < 0 then -1 else Min(size, CONFIG_SIZE)
  }

  /** `multicast_listener` as written: the test sees only the truncated count. */
  function ListenerAsWritten(e: Endpoint, b: Broadcast): (r: Endpoint)
    ensures r == e.(config := r.config)
    ensures r.config == (if b.size >= CONFIG_SIZE then b.view else e.config)
  {
    ListenerStep(e, ListenerBytes(b.size), b.view)
  }

  /**
   * The listener shares `udp_sock` with the data path, so PowerUDP
   * datagrams reach it too; as written, every one of them (at least a
   * header long) passes the size test and its first eight bytes become the
   * configuration.
   */
  lemma ListenerAdoptsPowerUdp(e: Endpoint, d: Datagram, view: ConfigMessage)
    requires WellFormed(d)
    ensures ListenerAsWritten(e, Broadcast(WireSize(d), view)).config == view
  {
  }

  /**
   * The intended listener: only a datagram that is exactly a configuration
   * long replaces the configuration (its true length is checked, not the
   * truncated count).
   */
  function ListenerReceive(e: Endpoint, b: Broadcast): (r: Endpoint)
    ensures r == e.(config := r.config)
    ensures r.config == (if b.size == CONFIG_SIZE then b.view else e.config)
  {
    ListenerStep(e, b.size, b.view)
  }

  /** With the intended test, no PowerUDP datagram is taken for a configuration. */
  lemma ListenerIgnoresPowerUdp(e: Endpoint, d: Datagram, view: ConfigMessage)
    requires WellFormed(d)
    ensures ListenerReceive(e, Broadcast(WireSize(d), view)) == e
  {
  }

  /**
   * The two listeners differ exactly on datagrams longer than a
   * configuration whose first bytes are not the current configuration.
   */
  lemma ListenerFixAgrees(e: Endpoint, b: Broadcast)
    ensures ListenerAsWritten(e, b) == ListenerReceive(e, b) <==>
      b.size <= CONFIG_SIZE || b.view == e.config
  {
    if b.size > CONFIG_SIZE && b.view != e.config {
      assert ListenerAsWritten(e, b).config != ListenerReceive(e, b).config;
    }
  }

  function ListenerRun(e: Endpoint, bs: seq<Broadcast>): (r: Endpoint)
    ensures r == e.(config := r.config)
    decreases |bs|
  {
    if |bs| == 0 then e
    else ListenerRun(ListenerReceive(e, bs[0]), bs[1..])
  }

  /**
   * Configurations are replaced whole: after any run of datagrams the
   * configuration is the one carried by the last exactly-sized datagram, or
   * the one before the run if there was none.
   */
  lemma {:induction false} ListenerLastWins(e: Endpoint, bs: seq<Broadcast>)
    ensures var r := ListenerRun(e, bs);
      && ((forall i :: 0 <= i < |bs| ==> bs[i].size != CONFIG_SIZE) ==> r.config == e.config)
      && (forall i :: 0 <= i < |bs| && bs[i].size == CONFIG_SIZE
            && (forall j :: i < j < |bs| ==> bs[j].size != CONFIG_SIZE)
            ==> r.config == bs[i].view)
    decreases |bs|
  {
    if |bs| > 0 {
      var e' := ListenerReceive(e, bs[0]);
      ListenerLastWins(e', bs[1..]);
      forall i | 0 <= i < |bs| && bs[i].size == CONFIG_SIZE
          && (forall j :: i < j < |bs| ==> bs[j].size != CONFIG_SIZE)
        ensures ListenerRun(e, bs).config == bs[i].view
      {
        if i > 0 {
          assert bs[1..][i - 1] == bs[i];
          forall j | i - 1 < j < |bs[1..]|
            ensures bs[1..][j].size != CONFIG_SIZE
          {
            assert bs[1..][j] == bs[j + 1];
          }
        } else {
          forall j | 0 <= j < |bs[1..]|
            ensures bs[1..][j].size != CONFIG_SIZE
          {
            assert bs[1..][j] == bs[j + 1];
          }
        }
      }
      if forall i :: 0 <= i < |bs| ==> bs[i].size != CONFIG_SIZE {
        forall j | 0 <= j < |bs[1..]|
          ensures bs[1..][j].size != CONFIG_SIZE
        {
          assert bs[1..][j] == bs[j + 1];
        }
      }
    }
  }

  // ---------------------------------------------------------------------
  // Reply check

  /** The zeroed three-byte response buffer after `read` stored the bytes `got`. */
  function ResponseBuffer(got: seq<u8>): seq<u8>
    requires |got| <= 2
  {
    got + Zeros(3 - |got|)
  }

  /** What `read(fd, resp, 2)` may return: -1 with nothing stored, or the bytes read. */
  predicate ReadShape(n: int, got: seq<u8>)
  {
    n <= 2 && (n < 0 ==> got == []) && (n >= 0 ==> |got| == n)
  }

  /**
   * `read(...) == 2 && strncmp(resp, "OK", 2) == 0`: a request succeeded iff
   * exactly the two bytes "OK" came back.
   */
  function ReplyAccepted(n: int, got: seq<u8>): (ok: bool)
    requires ReadShape(n, got)
    ensures ok <==> got == ReplyBytes(OK)
  {
    var buf := ResponseBuffer(got);
    assert n == 2 ==> buf[0] == got[0] && buf[1] == got[1];
    assert n == 2 && StrNEqFrom(buf, ReplyBytes(OK), 2, 0) ==> got == [got[0], got[1]];
    n == 2 && StrNEqFrom(buf, ReplyBytes(OK), 2, 0)
  }

  // ---------------------------------------------------------------------
  // Registration and configuration requests

  /** The registration record for a key: `strncpy(reg.psk, psk, PSK_LEN)`. */
  function RegisterRequest(key: seq<u8>): (m: RegisterMessage)
    requires NoNul(key)
    ensures |m.psk| == REGISTER_SIZE
    ensures |key| <= PSK_LEN ==> m.psk[..|key|] == key
    ensures forall i :: |key| <= i < PSK_LEN ==> m.psk[i] == 0
  {
    RegisterMessage(StrNCpy(key, PSK_LEN))
  }

  /**
   * A stream request of `init_protocol_with_port` (a RegisterMessage) or of
   * `request_protocol_config` (the one-byte tag, whose write is not checked,
   * then a ConfigMessage): 0 iff the connection was made, `write` reported
   * the whole record and "OK" came back; -1 otherwise.
   */
  function RequestStatus(connected: bool, written: int, recordSize: nat, n: int, got: seq<u8>): (status: int)
    requires ReadShape(n, got)
    ensures status == 0 || status == -1
    ensures status == 0 <==> connected && written == recordSize && got == ReplyBytes(OK)
  {
    if !connected then -1
    else if written != recordSize then -1
    else if !ReplyAccepted(n, got) then -1
    else 0
  }

  /**
   * The configuration record of `request_protocol_config`; its int flag
   * arguments are cut to uint8_t, so a flag is on iff the argument is
   * nonzero modulo 256.
   */
  function ConfigRequest(retransmission: int, backoff: int, sequence: int, baseTimeout: u16, maxRetries: u8): (c: ConfigMessage)
    ensures On(c.retransmission) <==> retransmission % 0x100 != 0
    ensures On(c.backoff) <==> backoff % 0x100 != 0
    ensures On(c.sequence) <==> sequence % 0x100 != 0
    ensures c.baseTimeout == baseTimeout && c.maxRetries == maxRetries
  {
    ConfigMessage(ToU8(retransmission), ToU8(backoff), ToU8(sequence), baseTimeout, maxRetries)
  }
}

=== FILE: control_plane.dfy ===
/**
 * The server's control plane: one stream request is read, dispatched by its
 * byte count and first byte, and answered; an accepted configuration is
 * clamped, stored whole and published on the multicast group.
 *
 * The server's I/O results are oracle inputs: the clock, the outcome of
 * `fork`, whether the "OK" write went through, and whether the multicast
 * socket could be set up and each multicast send succeeded.
 */
module ControlPlane {
  import opened Base
  import opened Wire
  import opened Registry

  /** The server's read buffer. */
  const BUFFER_SIZE: nat := 1024

  /** The first byte of a configuration request, 'C'. */
  const CONFIG_TAG: u8 := 67

  /** How many copies of a configuration are multicast at most. */
  const COPIES: nat := 3

  /** The configuration minimums the server enforces. */
  const MIN_TIMEOUT: nat := 100
  const MIN_RETRIES: nat := 1

  // ---------------------------------------------------------------------
  // Dispatch

  datatype RequestKind = RegisterReq | ConfigReq | UnknownReq

  /**
   * The shape test of `handle_new_registration`: exactly the size of a
   * RegisterMessage is a registration; otherwise a leading 'C' and room
   * for a ConfigMessage after it is a configuration request.
   */
  function Classify(bytes: seq<u8>): (k: RequestKind)
    requires |bytes| >= 1
    ensures k == RegisterReq <==> |bytes| == REGISTER_SIZE
    ensures k == ConfigReq ==> |bytes| != REGISTER_SIZE && |bytes| > CONFIG_SIZE && bytes[0] == CONFIG_TAG
    ensures k == UnknownReq ==> |bytes| != REGISTER_SIZE && (|bytes| <= CONFIG_SIZE || bytes[0] != CONFIG_TAG)
  {
    if |bytes| == REGISTER_SIZE then RegisterReq
    else if |bytes| >= 1 + CONFIG_SIZE && bytes[0] == CONFIG_TAG then ConfigReq
    else UnknownReq
  }

  /**
   * The three shapes, told apart: a registration is recognised by its size
   * alone (even when it starts with 'C'), a configuration request needs the
   * tag and a full record, and everything else is unknown.
   */
  lemma ClassifyCases(bytes: seq<u8>)
    requires |bytes| >= 1
    ensures Classify(bytes) == RegisterReq <==> |bytes| == REGISTER_SIZE
    ensures Classify(bytes) == ConfigReq <==>
      |bytes| != REGISTER_SIZE && |bytes| > CONFIG_SIZE && bytes[0] == CONFIG_TAG
    ensures Classify(bytes) == UnknownReq <==>
      |bytes| != REGISTER_SIZE && (|bytes| <= CONFIG_SIZE || bytes[0] != CONFIG_TAG)
  {
  }

  /** The requests a client writes are classified as what they are, when they arrive in one read. */
  lemma ClientRequestsClassified(key: seq<u8>, record: seq<u8>)
    requires |key| == REGISTER_SIZE
    requires |record| == CONFIG_SIZE
    ensures Classify(key) == RegisterReq
    ensures Classify([CONFIG_TAG] + record) == ConfigReq
  {
  }

  // ---------------------------------------------------------------------
  // Clamping

  predicate MeetsMinimums(c: ConfigMessage)
  {
    c.baseTimeout >= MIN_TIMEOUT && c.maxRetries >= MIN_RETRIES
  }

  /** Raises a timeout below 100 ms to 100 and zero retries to one; the flags pass through. */
  function Clamp(c: ConfigMessage): (r: ConfigMessage)
    ensures MeetsMinimums(r)
    ensures r.retransmission == c.retransmission && r.backoff == c.backoff && r.sequence == c.sequence
    ensures c.baseTimeout >= MIN_TIMEOUT ==> r.baseTimeout == c.baseTimeout
    ensures c.maxRetries >= MIN_RETRIES ==> r.maxRetries == c.maxRetries
  {
    var t := if c.baseTimeout < MIN_TIMEOUT then MIN_TIMEOUT else c.baseTimeout;
    var m := if c.maxRetries < MIN_RETRIES then MIN_RETRIES else c.maxRetries;
    c.(baseTimeout := t, maxRetries := m)
  }

  /** A configuration is left alone by clamping iff it already meets the minimums. */
  lemma ClampFixedPoints(c: ConfigMessage)
    ensures Clamp(c) == c <==> MeetsMinimums(c)
  {
  }

  /** Clamping twice is clamping once, so the re-clamp before publishing changes nothing. */
  lemma ClampIdempotent(c: ConfigMessage)
    ensures Clamp(Clamp(c)) == Clamp(c)
  {
    ClampFixedPoints(Clamp(c));
  }

  /**
   * Clamping raises no more than it must: any configuration
   * that meets the minimums and is at least as large field by field is
   * at least as large as the clamped one.
   */
  lemma ClampIsLeastRaise(c: ConfigMessage, d: ConfigMessage)
    requires MeetsMinimums(d)
    requires d.baseTimeout >= c.baseTimeout && d.maxRetries >= c.maxRetries
    ensures Clamp(c).baseTimeout <= d.baseTimeout && Clamp(c).maxRetries <= d.maxRetries
    ensures Clamp(c).baseTimeout >= c.baseTimeout && Clamp(c).maxRetries >= c.maxRetries
  {
  }

  /**
   * Degenerate fields are raised to the minimums; a 50 ms timeout is below
   * the minimum too, so it is raised even when the retries are valid.
   */
  lemma ClampScenarios()
    ensures Clamp(ConfigMessage(0, 0, 1, 0, 0)) == ConfigMessage(0, 0, 1, 100, 1)
    ensures Clamp(ConfigMessage(0, 0, 1, 50, 2)) == ConfigMessage(0, 0, 1, 100, 2)
  {
  }

  // ---------------------------------------------------------------------
  // Publishing

  /** The copies sent by the `for (i = 0; i < 3; i++)` loop from copy `i` on. */
  function SendCopies(c: ConfigMessage, sendOk: seq<bool>, i: nat): (sent: seq<ConfigMessage>)
    requires i <= COPIES <= |sendOk|
    ensures |sent| <= COPIES - i
    ensures forall k :: 0 <= k < |sent| ==> sent[k] == c && sendOk[i + k]
    ensures i + |sent| < COPIES ==> !sendOk[i + |sent|]
    decreases COPIES - i
  {
    if i == COPIES || !sendOk[i] then []
    else
      var rest := SendCopies(c, sendOk, i + 1);
      assert forall k :: 1 <= k < |[c] + rest| ==> ([c] + rest)[k] == rest[k - 1];
      [c] + rest
  }

  /** The configuration after `multicast_config` and the copies it put on the wire. */
  datatype Publication = Publication(config: ConfigMessage, sent: seq<ConfigMessage>)

  /**
   * `multicast_config`: when the socket and its TTL can be set up, the stored
   * configuration is re-clamped and sent up to three times, stopping at the
   * first failed send; otherwise nothing is sent.
   */
  function MulticastConfig(c: ConfigMessage, setupOk: bool, sendOk: seq<bool>): (p: Publication)
    requires |sendOk| >= COPIES
    ensures p.config == (if setupOk then Clamp(c) else c)
    ensures !setupOk ==> p.sent == []
    ensures |p.sent| <= COPIES
    // Every copy is the stored configuration and each went out on a successful send ...
    ensures forall k :: 0 <= k < |p.sent| ==> p.sent[k] == p.config && sendOk[k]
    // ... and fewer than three means the next send failed.
    ensures setupOk && |p.sent| < COPIES ==> !sendOk[|p.sent|]
  {
    if !setupOk then Publication(c, [])
    else
      var stored := Clamp(c);
      Publication(stored, SendCopies(stored, sendOk, 0))
  }

  /** When every send succeeds all three copies go out. */
  lemma AllSendsSucceed(c: ConfigMessage, sendOk: seq<bool>)
    requires |sendOk| >= COPIES
    requires forall k :: 0 <= k < COPIES ==> sendOk[k]
    ensures |MulticastConfig(c, true, sendOk).sent| == COPIES
  {
  }

  // ---------------------------------------------------------------------
  // One request

  datatype Server = Server(clients: seq<Client>, config: ConfigMessage)

  function InitialServer(): (s: Server)
    ensures ValidRegistry(s.clients)
  {
    Server([], DEFAULT_CONFIG)
  }

  /** What `read` gave: nothing (0 or an error), or the bytes of one request. */
  datatype StreamRead = ReadFailed | Received(bytes: seq<u8>)

  /** The I/O outcomes the handler depends on. */
  datatype Effects = Effects(
    now: int,
    fork: Option<Pid>,
    okWritten: bool,
    mcastSetup: bool,
    mcastSends: seq<bool>)

  predicate EffectsOk(fx: Effects)
  {
    |fx.mcastSends| >= COPIES
  }

  predicate ReadOk(read: StreamRead)
  {
    read.Received? ==> 1 <= |read.bytes| <= BUFFER_SIZE
  }

  /** The server after a request, the replies written, in order, and the configurations multicast. */
  datatype Handled = Handled(server: Server, replies: seq<Reply>, published: seq<ConfigMessage>)

  /**
   * `handle_new_registration` for a connection from `peer`. `view` is bytes
   * 1 .. CONFIG_SIZE of the request read as a ConfigMessage (its layout is
   * the compiler's); it only matters for a configuration request.
   */
  function HandleRequest(s: Server, read: StreamRead, view: ConfigMessage, peer: Peer, fx: Effects): (h: Handled)
    requires ReadOk(read) && EffectsOk(fx)
    // No bytes: the connection is closed without a reply.
    ensures read.ReadFailed? ==> h == Handled(s, [], [])
    ensures read.Received? && Classify(read.bytes) == RegisterReq ==>
      var a := Register(s.clients, read.bytes, peer, fx.now, fx.fork);
      h == Handled(Server(a.clients, s.config), [a.reply], [])
    // A configuration is stored clamped whatever happens to the reply ...
    ensures read.Received? && Classify(read.bytes) == ConfigReq ==>
      && h.server == Server(s.clients, Clamp(view))
      && h.replies == (if fx.okWritten then [OK] else [OK, ER])
    // ... and published only after a successful "OK".
    ensures read.Received? && Classify(read.bytes) == ConfigReq && fx.okWritten ==>
      h.published == MulticastConfig(Clamp(view), fx.mcastSetup, fx.mcastSends).sent
    ensures read.Received? && Classify(read.bytes) == ConfigReq && !fx.okWritten ==> h.published == []
    ensures read.Received? && Classify(read.bytes) == UnknownReq ==> h == Handled(s, [ER], [])
  {
    match read
    case ReadFailed => Handled(s, [], [])
    case Received(bytes) =>
      match Classify(bytes)
      case RegisterReq =>
        var a := Register(s.clients, bytes, peer, fx.now, fx.fork);
        Handled(Server(a.clients, s.config), [a.reply], [])
      case ConfigReq =>
        var stored := Clamp(view);
        if !fx.okWritten then Handled(Server(s.clients, stored), [OK, ER], [])
        else
          var p := MulticastConfig(stored, fx.mcastSetup, fx.mcastSends);
          ClampIdempotent(view);
          Handled(Server(s.clients, p.config), [OK], p.sent)
      case UnknownReq => Handled(s, [ER], [])
  }

  /** Every configuration the server publishes is the one it stores, and it meets the minimums. */
  lemma PublishedIsStored(s: Server, read: StreamRead, view: ConfigMessage, peer: Peer, fx: Effects)
    requires ReadOk(read) && EffectsOk(fx)
    ensures var h := HandleRequest(s, read, view, peer, fx);
      forall k :: 0 <= k < |h.published| ==> h.published[k] == h.server.config && MeetsMinimums(h.published[k])
  {
  }

  // ---------------------------------------------------------------------
  // The accept loop

  /** What happens to the server between two steps: a connection, or reaped workers. */
  datatype Event =
    | Connection(read: StreamRead, view: ConfigMessage, peer: Peer, fx: Effects)
    | ChildrenExited(pids: seq<Pid>, inSelect: bool)

  predicate EventOk(ev: Event)
  {
    ev.Connection? ==> ReadOk(ev.read) && EffectsOk(ev.fx)
  }

  function Step(s: Server, ev: Event): (s': Server)
    requires EventOk(ev)
    ensures |s'.clients| >= |s.clients|
    ensures ValidRegistry(s.clients) ==> ValidRegistry(s'.clients)
  {
    match ev
    case Connection(read, view, peer, fx) =>
      var h := HandleRequest(s, read, view, peer, fx);
      assert ValidRegistry(s.clients) ==> ValidRegistry(h.server.clients) by {
        if ValidRegistry(s.clients) && read.Received? && Classify(read.bytes) == RegisterReq {
          RegisterPreservesValid(s.clients, read.bytes, peer, fx.now, fx.fork);
        }
      }
      h.server
    case ChildrenExited(pids, _) => Server(ReapChildren(s.clients, pids), s.config)
  }

  /**
   * The intended server over any run of events, where a `select` that a
   * SIGCHLD interrupts is simply retried: the registry stays valid, so
   * `client_count` never exceeds MAX_CLIENTS, and it never shrinks.
   */
  function Serve(s: Server, events: seq<Event>): (s': Server)
    requires forall i :: 0 <= i < |events| ==> EventOk(events[i])
    ensures |s'.clients| >= |s.clients|
    ensures ValidRegistry(s.clients) ==> ValidRegistry(s'.clients)
    decreases |events|
  {
    if |events| == 0 then s
    else Serve(Step(s, events[0]), events[1..])
  }

  /**
   * A reap whose SIGCHLD arrived while the loop waited in `select`: the
   * handler runs, and `select` (never restarted after a handler) fails
   * with EINTR.
   */
  predicate Interrupts(ev: Event)
  {
    ev.ChildrenExited? && ev.inSelect
  }

  /** The intended server after the first `n` events (all of them when there are fewer). */
  function ServedPrefix(s: Server, events: seq<Event>, n: nat): Server
    requires forall i :: 0 <= i < |events| ==> EventOk(events[i])
  {
    Serve(s, events[..Min(n, |events|)])
  }

  /** How far the accept loop got: the server state and how many events it took. */
  datatype Run = Run(server: Server, handled: nat)

  /**
   * The accept loop as written: any failure of `select` ends it, so after a
   * reap that interrupted `select` no further connection is ever handled.
   */
  function ServeAsWritten(s: Server, events: seq<Event>): (r: Run)
    requires forall i :: 0 <= i < |events| ==> EventOk(events[i])
    ensures r.handled <= |events|
    ensures r.server == ServedPrefix(s, events, r.handled)
    ensures forall i :: 0 <= i < |events| && i < r.handled - 1 ==> !Interrupts(events[i])
    ensures 0 < r.handled < |events| ==> Interrupts(events[r.handled - 1])
    ensures |events| > 0 ==> r.handled > 0
    decreases |events|
  {
    if |events| == 0 then Run(s, 0)
    else if Interrupts(events[0]) then
      ServePrefix(s, events, 0);
      Run(Step(s, events[0]), 1)
    else
      var rest := ServeAsWritten(Step(s, events[0]), events[1..]);
      ServePrefix(s, events, rest.handled);
      Run(rest.server, rest.handled + 1)
  }

  /** Serving the first n+1 events is a step, then serving n more. */
  lemma ServePrefix(s: Server, events: seq<Event>, n: nat)
    requires forall i :: 0 <= i < |events| ==> EventOk(events[i])
    requires n < |events|
    ensures Serve(s, events[..n + 1]) == Serve(Step(s, events[0]), events[1..][..n])
    ensures forall i :: 1 <= i < n + 1 ==> events[i] == events[1..][i - 1]
  {
    assert events[..n + 1][1..] == events[1..][..n];
  }

  /**
   * As written, a worker that exits while the server waits in `select` ends
   * the accept loop: a connection that follows is never handled.
   */
  lemma ReapStopsServer(s: Server, pids: seq<Pid>, later: Event)
    requires EventOk(later)
    ensures var r := ServeAsWritten(s, [ChildrenExited(pids, true), later]);
      r.handled == 1 && r.server == Server(ReapChildren(s.clients, pids), s.config)
  {
  }

  /** The two loops agree on every run in which no reap interrupts `select`. */
  lemma ServeAgreesWithoutInterrupt(s: Server, events: seq<Event>)
    requires forall i :: 0 <= i < |events| ==> EventOk(events[i])
    requires forall i :: 0 <= i < |events| ==> !Interrupts(events[i])
    ensures ServeAsWritten(s, events) == Run(Serve(s, events), |events|)
  {
    var r := ServeAsWritten(s, events);
    assert events[..|events|] == events;
  }
}

=== FILE: destination.dfy ===
/**
 * How `send_message` turns its destination text into an address and a port:
 * the text is cut to the 63 bytes that fit its local buffer, split at the
 * first ':' if there is one, and the part after it is read with `atoi`.
 * Without a ':' the local UDP port is used.
 *
 * The destination is a C string, so it is modelled as the bytes before its
 * terminating NUL; characters are the ASCII byte values.
 */
module Destination {
  import opened Base

  /** `char dest_ip[64]` filled by strncpy of at most 63 bytes. */
  const DEST_TEXT_CAP: nat := 63

  /** The bytes of a C string: everything before its terminating NUL. */
  type CString = s: seq<u8> | NoNul(s)

  type Text = seq<u8>

  datatype Target = Target(ip: Text, port: u16)

  const SPACE: u8 := 32
  const COLON: u8 := 58
  const MINUS: u8 := 45
  const PLUS: u8 := 43
  const ZERO: u8 := 48

  /** C's isspace in the "C" locale: space, and the control bytes 9 to 13. */
  predicate IsSpace(c: u8)
  {
    c == SPACE || 9 <= c <= 13
  }

  predicate IsColon(c: u8)
  {
    c == COLON
  }

  predicate IsDigit(c: u8)
  {
    ZERO <= c <= ZERO + 9
  }

  function DigitValue(c: u8): nat
    requires IsDigit(c)
  {
    c - ZERO
  }

  function SkipSpaces(s: Text): (t: Text)
    ensures |t| <= |s| && t == s[|s| - |t|..]
    ensures |t| > 0 ==> !IsSpace(t[0])
  {
    if |s| > 0 && IsSpace(s[0]) then SkipSpaces(s[1..]) else s
  }

  /** The longest prefix made of decimal digits. */
  function DigitPrefix(s: Text): (t: Text)
    ensures |t| <= |s| && t == s[..|t|]
    ensures forall i :: 0 <= i < |t| ==> IsDigit(t[i])
    ensures |t| < |s| ==> !IsDigit(s[|t|])
  {
    if |s| > 0 && IsDigit(s[0]) then [s[0]] + DigitPrefix(s[1..]) else []
  }

  /** The value of a string of decimal digits, most significant first. */
  function DigitsValue(s: Text): nat
    requires forall i :: 0 <= i < |s| ==> IsDigit(s[i])
  {
    if |s| == 0 then 0 else 10 * DigitsValue(s[..|s| - 1]) + DigitValue(s[|s| - 1])
  }

  /**
   * `atoi`: leading white space, an optional sign, then as many digits as
   * follow; anything else ends the number, and no digits at all give 0.
   */
  function Atoi(s: Text): (n: int)
    // A plain numeral reads as its value.
    ensures (forall i :: 0 <= i < |s| ==> IsDigit(s[i])) ==> n == DigitsValue(s)
    // An empty or blank text, or one starting with anything but blank, sign or digit, reads as 0.
    ensures (forall i :: 0 <= i < |s| ==> IsSpace(s[i])) ==> n == 0
    ensures |s| > 0 && !IsSpace(s[0]) && !IsDigit(s[0]) && s[0] != MINUS && s[0] != PLUS ==> n == 0
  {
    var t := SkipSpaces(s);
    assert (forall i :: 0 <= i < |s| ==> IsSpace(s[i])) ==> t == [] by {
      if forall i :: 0 <= i < |s| ==> IsSpace(s[i]) {
        SkipBlank(s);
      }
    }
    Signed(t)
  }

  /** What `atoi` reads once the white space is skipped: an optional sign, then the digit prefix. */
  function Signed(t: Text): (n: int)
    ensures (forall i :: 0 <= i < |t| ==> IsDigit(t[i])) ==> n == DigitsValue(t)
    ensures |t| == 0 ==> n == 0
    ensures |t| > 0 && !IsDigit(t[0]) && t[0] != MINUS && t[0] != PLUS ==> n == 0
  {
    assert (forall i :: 0 <= i < |t| ==> IsDigit(t[i])) ==> DigitPrefix(t) == t by {
      if forall i :: 0 <= i < |t| ==> IsDigit(t[i]) {
        DigitPrefixAll(t);
      }
    }
    if |t| > 0 && t[0] == MINUS then -(DigitsValue(DigitPrefix(t[1..])) as int)
    else if |t| > 0 && t[0] == PLUS then DigitsValue(DigitPrefix(t[1..]))
    else DigitsValue(DigitPrefix(t))
  }

  /** White space only is skipped entirely. */
  lemma {:induction false} SkipBlank(s: Text)
    requires forall i :: 0 <= i < |s| ==> IsSpace(s[i])
    ensures SkipSpaces(s) == []
  {
    if |s| > 0 {
      assert forall i :: 0 <= i < |s[1..]| ==> s[1..][i] == s[i + 1];
      SkipBlank(s[1..]);
    }
  }

  /** A text made only of digits is its own digit prefix. */
  lemma {:induction false} DigitPrefixAll(s: Text)
    requires forall i :: 0 <= i < |s| ==> IsDigit(s[i])
    ensures DigitPrefix(s) == s
  {
    if |s| > 0 {
      assert forall i :: 0 <= i < |s[1..]| ==> s[1..][i] == s[i + 1];
      DigitPrefixAll(s[1..]);
    }
  }

  /** The decimal text of a natural number, as a caller writes a port. */
  function Decimal(n: nat): (s: Text)
    ensures |s| > 0
    ensures forall i :: 0 <= i < |s| ==> IsDigit(s[i])
  {
    if n < 10 then [ZERO + n]
    else Decimal(n / 10) + [ZERO + n % 10]
  }

  lemma {:induction false} DigitsValueDecimal(n: nat)
    ensures DigitsValue(Decimal(n)) == n
  {
    if n >= 10 {
      DigitsValueDecimal(n / 10);
      var s := Decimal(n);
      assert s[..|s| - 1] == Decimal(n / 10);
    }
  }

  /** atoi reads back exactly the number that Decimal wrote. */
  lemma AtoiDecimal(n: nat)
    ensures Atoi(Decimal(n)) == n
  {
    var s := Decimal(n);
    assert SkipSpaces(s) == s;
    assert DigitPrefix(s) == s;
    DigitsValueDecimal(n);
  }

  /** No ':' among the bytes of a text. */
  predicate ColonFree(s: Text)
  {
    forall j :: 0 <= j < |s| ==> !IsColon(s[j])
  }

  /** The bytes of the destination that fit `dest_ip`. */
  function DestText(destination: CString): (text: Text)
    ensures |text| <= DEST_TEXT_CAP
  {
    destination[..Min(|destination|, DEST_TEXT_CAP)]
  }

  function SplitDestination(destination: CString, localPort: int): (t: Target)
    ensures ColonFree(t.ip)
    ensures ColonFree(DestText(destination)) ==> t == Target(DestText(destination), ToU16(localPort))
    ensures !ColonFree(DestText(destination)) ==>
      var text := DestText(destination);
      && |t.ip| < |text| && text[..|t.ip|] == t.ip && IsColon(text[|t.ip|])
      && t.port == ToU16(Atoi(text[|t.ip| + 1..]))
  {
    SplitText(DestText(destination), localPort)
  }

  /** The split of the text in `dest_ip`: at its first ':', or the local port when there is none. */
  function SplitText(text: Text, localPort: int): (t: Target)
    ensures ColonFree(t.ip)
    ensures ColonFree(text) ==> t == Target(text, ToU16(localPort))
    ensures !ColonFree(text) ==>
      && |t.ip| < |text| && text[..|t.ip|] == t.ip && IsColon(text[|t.ip|])
      && t.port == ToU16(Atoi(text[|t.ip| + 1..]))
  {
    match FirstWhere(text, IsColon)
    case None =>
      assert ColonFree(text) by {
        forall j | 0 <= j < |text| ensures !IsColon(text[j]) {
          assert !(IsColon)(text[j]);
        }
      }
      Target(text, ToU16(localPort))
    case Some(i) =>
      assert (IsColon)(text[i]);
      SplitAt(text, i)
  }

  /** The split at the first ':', which is at position `i`. */
  function SplitAt(text: Text, i: nat): (t: Target)
    requires i < |text| && IsColon(text[i])
    requires forall j :: 0 <= j < i ==> !IsColon(text[j])
    ensures ColonFree(t.ip) && |t.ip| == i && t.ip == text[..i]
    ensures t.port == ToU16(Atoi(text[i + 1..]))
  {
    assert ColonFree(text[..i]) by {
      forall j | 0 <= j < i ensures !IsColon(text[..i][j]) {
        assert text[..i][j] == text[j];
      }
    }
    Target(text[..i], ToU16(Atoi(text[i + 1..])))
  }

  /**
   * An "IP:PORT" text that fits the buffer splits back into its address and
   * port, whatever the local port is.
   */
  lemma SplitJoin(ip: CString, port: u16, localPort: int)
    requires ColonFree(ip)
    requires |ip| + 1 + |Decimal(port)| <= DEST_TEXT_CAP
    ensures NoNul(ip + [COLON] + Decimal(port))
    ensures SplitDestination(ip + [COLON] + Decimal(port), localPort) == Target(ip, port)
  {
    var text := ip + [COLON] + Decimal(port);
    JoinedNoNul(ip, Decimal(port));
    assert DestText(text) == text;
    forall j | 0 <= j < |ip|
      ensures !IsColon(text[j])
    {
      assert text[j] == ip[j];
    }
    FirstWhereAt(text, IsColon, |ip|);
    assert text[..|ip|] == ip;
    assert text[|ip| + 1..] == Decimal(port);
    AtoiDecimal(port);
  }

  /** Joining a C string, a ':' and digits gives a C string. */
  lemma JoinedNoNul(ip: CString, digits: Text)
    requires forall i :: 0 <= i < |digits| ==> IsDigit(digits[i])
    ensures NoNul(ip + [COLON] + digits)
  {
    var text := ip + [COLON] + digits;
    forall i | 0 <= i < |text| ensures text[i] != 0 {
      if i < |ip| { assert text[i] == ip[i]; }
      else if i > |ip| { assert text[i] == digits[i - |ip| - 1]; }
    }
  }
}

=== FILE: registry.dfy ===
/**
 * The server's client registry: the table of registered peers, admission of
 * a registration, and the update made when a worker process terminates.
 *
 * The C table is a fixed array of MAX_CLIENTS slots of which the first
 * `client_count` are in use; entries are never removed, so the used prefix
 * is modelled as a sequence whose length is `client_count`.
 */
module Registry {
  import opened Base
  import opened Wire

  const MAX_CLIENTS: nat := 10

  /** The key compiled into the server. */
  const PSK: seq<u8> := Ascii("minha_chave_preconfigurada")

  /** A peer address: IPv4 address and port. */
  datatype Peer = Peer(ip: u32, port: u16)

  /** One registry entry; `handlerPid` is 0 when no worker is recorded. */
  datatype Client = Client(addr: Peer, lastSeen: int, active: bool, handlerPid: int)

  predicate UniqueIps(cs: seq<Client>)
  {
    forall i, j :: 0 <= i < j < |cs| ==> cs[i].addr.ip != cs[j].addr.ip
  }

  /** What the registry keeps true: bounded by capacity, one entry per IP, no negative pids. */
  predicate ValidRegistry(cs: seq<Client>)
  {
    && |cs| <= MAX_CLIENTS
    && UniqueIps(cs)
    && forall i :: 0 <= i < |cs| ==> cs[i].handlerPid >= 0
  }

  lemma PskShape()
    ensures |PSK| == 26 < PSK_LEN
    ensures NoNul(PSK)
  {
  }

  /** `strcmp(reg.psk, PSK) == 0` on the 64-byte key field. */
  function PskMatches(psk: seq<u8>): (m: bool)
    ensures |psk| > |PSK| ==> (m <==> psk[..|PSK|] == PSK && psk[|PSK|] == 0)
  {
    PskShape();
    assert |psk| > |PSK| ==> (StrEq(psk, PSK) <==> psk[..|PSK|] == PSK && psk[|PSK|] == 0) by {
      if |psk| > |PSK| {
        StrEqKey(psk, PSK);
      }
    }
    StrEq(psk, PSK)
  }

  /** The key field matches iff it holds the server's key followed by a NUL; later bytes are never read. */
  lemma PskMatchesMeaning(psk: seq<u8>)
    requires |psk| == PSK_LEN
    ensures PskMatches(psk) <==> psk[..|PSK|] == PSK && psk[|PSK|] == 0
  {
    PskShape();
    StrEqKey(psk, PSK);
  }

  predicate HasIp(ip: u32, c: Client)
  {
    c.addr.ip == ip
  }

  /** The registry is searched by IP address alone; the port plays no part. */
  function Lookup(cs: seq<Client>, ip: u32): Option<nat>
  {
    FirstWhere(cs, c => HasIp(ip, c))
  }

  /** `handler_pid` after the fork: set to the child's pid on success, left alone on failure. */
  function PidAfterFork(previous: int, fork: Option<Pid>): int
  {
    match fork
    case Some(p) => p
    case None => previous
  }

  /** The registry after a registration and the reply written back. */
  datatype Admission = Admission(clients: seq<Client>, reply: Reply)

  /**
   * A registration request from `peer` at time `now`, with `fork` the
   * outcome of forking its worker. Capacity is checked before the lookup.
   */
  function Register(cs: seq<Client>, psk: seq<u8>, peer: Peer, now: int, fork: Option<Pid>): (r: Admission)
    requires |psk| == REGISTER_SIZE
    // Accepted iff the key matches and a slot is free; "OK" even when fork fails.
    ensures r.reply == OK <==> PskMatches(psk) && |cs| < MAX_CLIENTS
    ensures r.reply != OK ==> r.reply == NO && r.clients == cs
    // A known IP keeps its entry and the count; a new one is appended.
    ensures r.reply == OK && Lookup(cs, peer.ip).Some? ==>
      var i := Lookup(cs, peer.ip).value;
      && |r.clients| == |cs|
      && r.clients[i] == Client(cs[i].addr, now, true, PidAfterFork(cs[i].handlerPid, fork))
      && forall j :: 0 <= j < |cs| && j != i ==> r.clients[j] == cs[j]
    ensures r.reply == OK && Lookup(cs, peer.ip).None? ==>
      && |r.clients| == |cs| + 1
      && r.clients[..|cs|] == cs
      && r.clients[|cs|] == Client(peer, now, true, PidAfterFork(0, fork))
  {
    if !(PskMatches(psk) && |cs| < MAX_CLIENTS) then Admission(cs, NO)
    else match Lookup(cs, peer.ip)
      case Some(i) =>
        Admission(cs[i := cs[i].(lastSeen := now, active := true, handlerPid := PidAfterFork(cs[i].handlerPid, fork))], OK)
      case None =>
        Admission(cs + [Client(peer, now, true, PidAfterFork(0, fork))], OK)
  }

  /** Registration keeps the registry valid: capacity, one entry per IP, pids never negative. */
  lemma RegisterPreservesValid(cs: seq<Client>, psk: seq<u8>, peer: Peer, now: int, fork: Option<Pid>)
    requires |psk| == REGISTER_SIZE
    requires ValidRegistry(cs)
    ensures ValidRegistry(Register(cs, psk, peer, now, fork).clients)
  {
    var r := Register(cs, psk, peer, now, fork);
    if r.reply == OK && Lookup(cs, peer.ip).None? {
      forall i, j | 0 <= i < j < |r.clients|
        ensures r.clients[i].addr.ip != r.clients[j].addr.ip
      {
        if j == |cs| {
          assert !HasIp(peer.ip, cs[i]);
        } else {
          assert r.clients[i] == cs[i] && r.clients[j] == cs[j];
        }
      }
    }
  }

  /**
   * Re-registration from an IP already present reuses that entry whatever
   * the port: the count stays, the entry is active and freshly seen, and
   * every other entry is untouched.
   */
  lemma ReRegistrationReusesEntry(cs: seq<Client>, psk: seq<u8>, peer: Peer, now: int, fork: Option<Pid>, i: nat)
    requires |psk| == REGISTER_SIZE
    requires UniqueIps(cs)
    requires i < |cs| && cs[i].addr.ip == peer.ip
    requires PskMatches(psk) && |cs| < MAX_CLIENTS
    ensures var r := Register(cs, psk, peer, now, fork).clients;
      && |r| == |cs|
      && r[i].active && r[i].lastSeen == now && r[i].addr == cs[i].addr
      && forall j :: 0 <= j < |cs| && j != i ==> r[j] == cs[j]
  {
    assert HasIp(peer.ip, cs[i]);
  }

  /**
   * Because capacity is checked first, a full registry turns away even a
   * peer it already holds.
   */
  lemma FullRegistryRejectsKnownPeer(cs: seq<Client>, psk: seq<u8>, peer: Peer, now: int, fork: Option<Pid>, i: nat)
    requires |psk| == REGISTER_SIZE
    requires |cs| == MAX_CLIENTS
    requires i < |cs| && cs[i].addr.ip == peer.ip
    ensures Register(cs, psk, peer, now, fork) == Admission(cs, NO)
  {
  }

  /** Where a pid is recorded: the first entry with that `handler_pid`. */
  function LookupPid(cs: seq<Client>, pid: Pid): Option<nat>
  {
    FirstWhere(cs, (c: Client) => c.handlerPid == pid)
  }

  /**
   * `handle_child_signal` for one reaped pid: the first entry with that pid
   * becomes inactive with pid 0.
   */
  function ChildExited(cs: seq<Client>, pid: Pid): (r: seq<Client>)
    ensures |r| == |cs|
    ensures LookupPid(cs, pid).None? ==> r == cs
    ensures LookupPid(cs, pid).Some? ==>
      var i := LookupPid(cs, pid).value;
      && r[i] == cs[i].(active := false, handlerPid := 0)
      && forall j :: 0 <= j < |cs| && j != i ==> r[j] == cs[j]
  {
    match LookupPid(cs, pid)
    case None => cs
    case Some(i) => cs[i := cs[i].(active := false, handlerPid := 0)]
  }

  /**
   * What reaping may do to an entry: its address and last-seen time stay,
   * it can only go from active to inactive, and its pid stays or becomes 0.
   */
  predicate Keeps(c: Client, d: Client)
  {
    && d.addr == c.addr
    && d.lastSeen == c.lastSeen
    && (d.active ==> c.active)
    && (d.handlerPid == c.handlerPid || d.handlerPid == 0)
  }

  predicate Evolves(cs: seq<Client>, r: seq<Client>)
  {
    |r| == |cs| && forall j :: 0 <= j < |cs| ==> Keeps(cs[j], r[j])
  }

  lemma EvolvesTransitive(a: seq<Client>, b: seq<Client>, c: seq<Client>)
    requires Evolves(a, b) && Evolves(b, c)
    ensures Evolves(a, c)
  {
    forall j | 0 <= j < |a|
      ensures Keeps(a[j], c[j])
    {
      assert Keeps(a[j], b[j]) && Keeps(b[j], c[j]);
    }
  }

  /** A registry that only evolved this way is still valid. */
  lemma EvolvesKeepsValid(cs: seq<Client>, r: seq<Client>)
    requires ValidRegistry(cs) && Evolves(cs, r)
    ensures ValidRegistry(r)
  {
    forall i, j | 0 <= i < j < |r|
      ensures r[i].addr.ip != r[j].addr.ip
    {
      assert Keeps(cs[i], r[i]) && Keeps(cs[j], r[j]);
    }
    forall j | 0 <= j < |r|
      ensures r[j].handlerPid >= 0
    {
      assert Keeps(cs[j], r[j]);
    }
  }

  lemma ChildExitedEvolves(cs: seq<Client>, pid: Pid)
    ensures Evolves(cs, ChildExited(cs, pid))
  {
    var r := ChildExited(cs, pid);
    forall j | 0 <= j < |cs|
      ensures Keeps(cs[j], r[j])
    {
    }
  }

  /**
   * The `waitpid` loop: one update per reaped pid, in order. Entries keep
   * their address and last-seen time, only ever become inactive, and keep
   * their pid or lose it; the registry stays valid.
   */
  function ReapChildren(cs: seq<Client>, pids: seq<Pid>): (r: seq<Client>)
    ensures Evolves(cs, r)
    ensures ValidRegistry(cs) ==> ValidRegistry(r)
    decreases |pids|
  {
    if |pids| == 0 then
      assert Evolves(cs, cs) by {
        forall j | 0 <= j < |cs| ensures Keeps(cs[j], cs[j]) { }
      }
      cs
    else
      var next := ChildExited(cs, pids[0]);
      var r := ReapChildren(next, pids[1..]);
      ChildExitedEvolves(cs, pids[0]);
      EvolvesTransitive(cs, next, r);
      assert ValidRegistry(cs) ==> ValidRegistry(r) by {
        if ValidRegistry(cs) {
          EvolvesKeepsValid(cs, r);
        }
      }
      r
  }

  /** After a pid is reaped no entry is still marked with it, if it was recorded at most once. */
  lemma ChildExitedClearsPid(cs: seq<Client>, pid: Pid)
    requires forall i, j :: 0 <= i < j < |cs| && cs[i].handlerPid == pid ==> cs[j].handlerPid != pid
    ensures forall j :: 0 <= j < |cs| ==> ChildExited(cs, pid)[j].handlerPid != pid
  {
    var r := ChildExited(cs, pid);
    match LookupPid(cs, pid)
    case None =>
    case Some(i) =>
      forall j | 0 <= j < |cs|
        ensures r[j].handlerPid != pid
      {
        if j < i {
          assert r[j] == cs[j];
        } else if j > i {
          assert r[j] == cs[j];
        }
      }
  }
}

=== FILE: session.dfy ===
/**
 * Properties of the client and the server working together: the key
 * agreement of a registration, the reply a client sees, a configuration
 * change travelling from one client through the server to the listeners
 * that receive the group's datagrams, and one data exchange between two
 * endpoints.
 */
module Session {
  import opened Base
  import opened Wire
  import opened Destination
  import opened Arq
  import opened ClientControl
  import opened Registry
  import opened ControlPlane

  /**
   * The key field a client fills with `strncpy` passes the server's
   * `strcmp` iff the client was given exactly the server's key.
   */
  lemma PskAgreement(key: seq<u8>)
    requires NoNul(key)
    ensures PskMatches(RegisterRequest(key).psk) <==> key == PSK
  {
    var psk := RegisterRequest(key).psk;
    PskShape();
    PskMatchesMeaning(psk);
    KeyFieldNuls(key);
    if PskMatches(psk) {
      assert psk[|PSK| - 1] == psk[..|PSK|][|PSK| - 1] == PSK[|PSK| - 1];
      assert |key| == |PSK|;
      assert key == psk[..|PSK|];
    }
  }

  /** In the key field a byte is NUL exactly from the end of the (NUL-free) key on. */
  lemma KeyFieldNuls(key: seq<u8>)
    requires NoNul(key)
    ensures var psk := RegisterRequest(key).psk;
      forall i :: 0 <= i < PSK_LEN ==> (psk[i] == 0 <==> i >= |key|)
  {
    var psk := RegisterRequest(key).psk;
    var m := Min(|key|, PSK_LEN);
    forall i | 0 <= i < m
      ensures psk[i] == key[i]
    {
      assert psk[i] == psk[..m][i];
    }
  }

  /** Only the two bytes of "OK" satisfy the client's reply check. */
  lemma OnlyOkAccepted(r: Reply)
    ensures ReplyAccepted(2, ReplyBytes(r)) <==> r == OK
  {
    match r
    case OK =>
    case NO => assert ReplyBytes(NO)[0] != ReplyBytes(OK)[0];
    case ER => assert ReplyBytes(ER)[0] != ReplyBytes(OK)[0];
  }

  /**
   * The stream exchange of `init_protocol_with_port`, for a record that is
   * written whole and arrives in one read: it reports success iff the
   * client was given the server's key and the registry had a free slot; a
   * rejected client leaves the registry as it was. (The UDP setup that
   * follows can still make the call fail; it is not part of this exchange.)
   */
  lemma RegistrationHandshake(cs: seq<Client>, key: seq<u8>, peer: Peer, now: int, fork: Option<Pid>)
    requires NoNul(key)
    ensures var a := Register(cs, RegisterRequest(key).psk, peer, now, fork);
      && (RequestStatus(true, REGISTER_SIZE, REGISTER_SIZE, 2, ReplyBytes(a.reply)) == 0 <==>
            key == PSK && |cs| < MAX_CLIENTS)
      && (a.reply != OK ==> a.clients == cs)
  {
    var a := Register(cs, RegisterRequest(key).psk, peer, now, fork);
    PskAgreement(key);
    OnlyOkAccepted(a.reply);
  }

  /**
   * The broadcasts a listener sees when every published copy reaches it,
   * as it does for a socket bound to the group's port.
   */
  function Heard(published: seq<ConfigMessage>): (bs: seq<Broadcast>)
    ensures |bs| == |published|
    ensures forall i :: 0 <= i < |bs| ==> bs[i] == Broadcast(CONFIG_SIZE, published[i])
  {
    seq(|published|, i requires 0 <= i < |published| => Broadcast(CONFIG_SIZE, published[i]))
  }

  /**
   * A configuration request from `request_protocol_config` that the server
   * acknowledges and manages to publish at least once: the server stores the
   * clamped request, and any listener that hears the copies ends with that
   * configuration, which keeps the client's flags (cut to a byte) and meets
   * the minimums.
   */
  lemma ConfigPropagates(
    s: Server, record: seq<u8>,
    retransmission: int, backoff: int, sequence: int, baseTimeout: u16, maxRetries: u8,
    peer: Peer, fx: Effects, listener: Endpoint)
    requires |record| == CONFIG_SIZE
    requires EffectsOk(fx) && fx.okWritten && fx.mcastSetup && fx.mcastSends[0]
    ensures var req := ConfigRequest(retransmission, backoff, sequence, baseTimeout, maxRetries);
      var h := HandleRequest(s, Received([CONFIG_TAG] + record), req, peer, fx);
      var after := ListenerRun(listener, Heard(h.published)).config;
      && h.replies == [OK]
      && h.server.clients == s.clients
      && h.server.config == Clamp(req)
      && |h.published| >= 1
      && after == Clamp(req)
      && MeetsMinimums(after)
      && (On(after.retransmission) <==> retransmission % 0x100 != 0)
      && (On(after.backoff) <==> backoff % 0x100 != 0)
      && (On(after.sequence) <==> sequence % 0x100 != 0)
      && after.baseTimeout == (if baseTimeout < MIN_TIMEOUT then MIN_TIMEOUT else baseTimeout)
      && after.maxRetries == (if maxRetries < MIN_RETRIES then MIN_RETRIES else maxRetries)
  {
    var req := ConfigRequest(retransmission, backoff, sequence, baseTimeout, maxRetries);
    var bytes := [CONFIG_TAG] + record;
    assert Classify(bytes) == ConfigReq;
    var h := HandleRequest(s, Received(bytes), req, peer, fx);
    var bs := Heard(h.published);
    ListenerLastWins(listener, bs);
    assert bs[|bs| - 1].size == CONFIG_SIZE;
  }

  /**
   * The copies that reach the client's one UDP socket as written. The server
   * sends them to the group's port, and the socket is bound to the client's
   * local port, so they arrive only when the two ports are the same.
   */
  function DeliveredAsWritten(localPort: int, published: seq<ConfigMessage>): (bs: seq<Broadcast>)
    ensures localPort == MCAST_PORT ==> bs == Heard(published)
    ensures localPort != MCAST_PORT ==> bs == []
  {
    if localPort == MCAST_PORT then Heard(published) else []
  }

  /**
   * As written, a configuration change reaches a client only through its
   * port: the server stores and publishes the clamped request, and a
   * listener ends with it exactly when its local port is the group's port or
   * it held that configuration already. On any other port it keeps its old one.
   */
  lemma ConfigReachesOnlyGroupPort(
    s: Server, record: seq<u8>,
    retransmission: int, backoff: int, sequence: int, baseTimeout: u16, maxRetries: u8,
    peer: Peer, fx: Effects, listener: Endpoint)
    requires |record| == CONFIG_SIZE
    requires EffectsOk(fx) && fx.okWritten && fx.mcastSetup && fx.mcastSends[0]
    ensures var req := ConfigRequest(retransmission, backoff, sequence, baseTimeout, maxRetries);
      var h := HandleRequest(s, Received([CONFIG_TAG] + record), req, peer, fx);
      var after := ListenerRun(listener, DeliveredAsWritten(listener.localPort, h.published)).config;
      && h.server.config == Clamp(req)
      && |h.published| >= 1
      && (listener.localPort != MCAST_PORT ==> after == listener.config)
      && (after == h.server.config <==> listener.localPort == MCAST_PORT || listener.config == Clamp(req))
  {
    ConfigPropagates(s, record, retransmission, backoff, sequence, baseTimeout, maxRetries, peer, fx, listener);
  }

  /**
   * One lossless exchange with matching sequence state: the receiver gets
   * the payload (cut to its buffer) and answers with an ACK of the sent
   * number; when that ACK is the first attempt's response, the send
   * succeeds at once with no retransmission, and both counters move in
   * lockstep.
   */
  lemma Exchange(
    sender: Endpoint, receiver: Endpoint, destination: CString, payload: seq<u8>,
    outcomes: seq<Attempt>, stale: seq<u8>, bufsize: nat)
    requires |payload| <= MAX_UDP_DATA && |stale| == MAX_UDP_DATA
    requires sender.sendSeq == receiver.recvSeq
    requires On(sender.config.sequence) == On(receiver.config.sequence)
    requires |outcomes| > sender.config.maxRetries
    requires !ShouldDrop(sender.loss, outcomes[0].draw)
    requires outcomes[0].response == Reply(HEADER_SIZE, PUDP_ACK, sender.sendSeq)
    ensures var rx := ReceiveMessage(receiver, Deliver(DataPacket(sender.sendSeq, payload), stale), bufsize);
      var tx := SendMessage(sender, destination, payload, outcomes);
      && rx.data == payload[..Min(|payload|, bufsize)]
      && rx.reply == Some(Control(PUDP_ACK, sender.sendSeq))
      && AsResponse(rx.reply.value) == outcomes[0].response
      && tx.ret == |payload|
      && tx.endpoint.lastRetransmissions == 0
      && tx.log == [AttemptLog(true, sender.config.baseTimeout)]
      && tx.endpoint.sendSeq == rx.endpoint.recvSeq
  {
    ReceiveRoundTrip(receiver, payload, stale, bufsize);
    var tx := SendMessage(sender, destination, payload, outcomes);
    assert Acks(outcomes[0].response, sender.sendSeq);
    assert tx.log[0] == LogEntry(sender.config, sender.loss, outcomes, 0);
  }

  /**
   * With sequencing on, a retransmission of a datagram the receiver already
   * accepted (its ACK was lost) is refused with a NACK and not delivered
   * again; the sender, which waits only for an ACK, keeps retrying.
   */
  lemma DuplicateRefused(receiver: Endpoint, payload: seq<u8>, stale: seq<u8>, stale2: seq<u8>, bufsize: nat)
    requires |payload| <= MAX_UDP_DATA && |stale| == MAX_UDP_DATA && |stale2| == MAX_UDP_DATA
    requires On(receiver.config.sequence)
    ensures var first := ReceiveMessage(receiver, Deliver(DataPacket(receiver.recvSeq, payload), stale), bufsize);
      var again := ReceiveMessage(first.endpoint, Deliver(DataPacket(receiver.recvSeq, payload), stale2), bufsize);
      && first.ret >= 0
      && again.ret == -1 && again.data == []
      && again.reply == Some(Control(PUDP_NACK, receiver.recvSeq))
      && !Acks(AsResponse(again.reply.value), receiver.recvSeq)
  {
  }

  /** Without sequencing the same retransmission is delivered a second time. */
  lemma DuplicateDeliveredWithoutSequencing(receiver: Endpoint, payload: seq<u8>, stale: seq<u8>, stale2: seq<u8>, bufsize: nat)
    requires |payload| <= MAX_UDP_DATA && |stale| == MAX_UDP_DATA && |stale2| == MAX_UDP_DATA
    requires !On(receiver.config.sequence)
    ensures var first := ReceiveMessage(receiver, Deliver(DataPacket(receiver.recvSeq, payload), stale), bufsize);
      var again := ReceiveMessage(first.endpoint, Deliver(DataPacket(receiver.recvSeq, payload), stale2), bufsize);
      && first.endpoint == receiver
      && again.ret == first.ret
      && again.data == first.data == payload[..Min(|payload|, bufsize)]
  {
    ReceiveRoundTrip(receiver, payload, stale, bufsize);
    ReceiveRoundTrip(receiver, payload, stale2, bufsize);
  }
}

=== FILE: wire.dfy ===
/**
 * The PowerUDP wire records: the datagram header and its message tags, the
 * protocol configuration record shared by the stream requests and the
 * multicast broadcasts, the registration record, and the two-byte stream
 * replies.
 *
 * The records travel as raw C structs with no byte-order conversion, so their
 * byte layout is whatever the compiler's ABI makes of them. The model keeps
 * the fields and the sizes, not a byte-level codec.
 */
module Wire {
  import opened Base

  const PSK_LEN: nat := 64

  /** The port of the multicast group the server sends configurations to. */
  const MCAST_PORT: nat := 54321
  const MAX_UDP_DATA: nat := 1024

  /** Message tags of the header's `type` byte. */
  const PUDP_DATA: u8 := 0x01
  const PUDP_ACK: u8 := 0x02
  const PUDP_NACK: u8 := 0x03

  /** The three tags are distinct, so a datagram is of at most one kind. */
  lemma TagsDistinct()
    ensures PUDP_DATA != PUDP_ACK && PUDP_DATA != PUDP_NACK && PUDP_ACK != PUDP_NACK
  {
  }

  /**
   * sizeof(PowerUDPHeader): a u8, a u32 and a u16 under natural alignment
   * (1 + 3 padding + 4 + 2 + 2 padding). The properties rest on how this
   * compares with the other two record sizes, and on the value itself where
   * a reply's byte count is the header alone.
   */
  const HEADER_SIZE: nat := 12

  /** sizeof(ConfigMessage): three u8 flags, a u16 and a u8 (3 + 1 padding + 2 + 1 + 1 padding). */
  const CONFIG_SIZE: nat := 8

  /** sizeof(RegisterMessage): the key field alone. */
  const REGISTER_SIZE: nat := PSK_LEN

  datatype Header = Header(kind: u8, seqNum: u32, dataLen: u16)

  /** A datagram as sent: the header followed by `payload`. */
  datatype Datagram = Datagram(header: Header, payload: seq<u8>)

  /**
   * `data_len` is 16 bits wide but the payload buffer holds MAX_UDP_DATA bytes,
   * so a datagram is only well formed when its length field says no more
   * than that and matches the payload actually carried.
   */
  predicate WellFormed(d: Datagram)
  {
    d.header.dataLen <= MAX_UDP_DATA && |d.payload| == d.header.dataLen
  }

  /** The byte count a datagram occupies on the wire (`sizeof(PowerUDPHeader) + len`). */
  function WireSize(d: Datagram): nat
  {
    HEADER_SIZE + |d.payload|
  }

  /** The DATA datagram that `send_message` builds for a payload. */
  function DataPacket(seqNum: u32, payload: seq<u8>): (d: Datagram)
    requires |payload| <= MAX_UDP_DATA
    ensures WellFormed(d)
    ensures d.header.kind == PUDP_DATA && d.header.seqNum == seqNum
    ensures d.payload == payload
  {
    Datagram(Header(PUDP_DATA, seqNum, |payload|), payload)
  }

  /** The header of an ACK or NACK: it echoes a sequence number and carries no data. */
  function Control(kind: u8, seqNum: u32): (h: Header)
    requires kind == PUDP_ACK || kind == PUDP_NACK
    ensures h.kind == kind && h.dataLen == 0 && h.seqNum == seqNum
    ensures h.kind != PUDP_DATA
  {
    Header(kind, seqNum, 0)
  }

  /** The protocol configuration; each flag is a byte read as a boolean. */
  datatype ConfigMessage = ConfigMessage(
    retransmission: u8,
    backoff: u8,
    sequence: u8,
    baseTimeout: u16,
    maxRetries: u8)

  predicate On(flag: u8)
  {
    flag != 0
  }

  /** The configuration both processes start from. */
  const DEFAULT_CONFIG: ConfigMessage := ConfigMessage(1, 1, 1, 1000, 5)

  /** The registration record: a fixed key field of PSK_LEN bytes. */
  datatype RegisterMessage = RegisterMessage(psk: seq<u8>)

  /** The two-byte replies on the stream channel. */
  datatype Reply = OK | NO | ER

  function ReplyBytes(r: Reply): (b: seq<u8>)
    ensures |b| == 2
  {
    match r
    case OK => [79, 75]
    case NO => [78, 79]
    case ER => [69, 82]
  }
}
